=== FILE: README.md ===
# mmcontainers in Dafny

mmcontainers attaches container metadata to log messages. It is an rsyslog
message-modification plugin. Background watchers follow the Docker event
stream and the Kubernetes watch API and keep a shared cache of container,
pod and namespace records. Filters read each rsyslog message in `fulljson`
form, take its `CONTAINER_ID_FULL` and look up the matching records in that
cache. They answer with a JSON update that rsyslog merges into the message.

This project models the sequential core of that system and proves properties
of it:

- **Watchers** (`kube_watch.dfy`, `docker_driver.dfy`, `docker_legacy.dfy`,
  `kube_index.dfy`). Each watcher turns one event into a put, a delete or no
  change on the cache. The cache is a `Store.Cache` object that the watchers
  and filters share by reference. A watcher is a class whose methods update
  that object. Each method is proved equal to a specification function over
  maps, and the lemmas state what those functions do:
  - which keys change;
  - the key formats;
  - idempotence;
  - the error raised on an absent key;
  - the add/remove round trip of the pod index.
- **Filters** (`enrich.dfy`, `pod_filter.dfy`, `containers_filter.dfy`). The
  handlers are functions from a message and the cache contents to
  `Result<Value>`. The metadata-copy loop is a method proved against its
  specification function, in whatever order the key set is traversed.
  Constructors and `prepare` are class members that build or overwrite the
  flags and key sets.
- **Retry** (`retry.dfy`). The `retry_on` loop is a method proved against a
  recursive trace function. The wrapped function becomes the list of what
  its calls did, and the clock becomes each failed call's duration. The
  lemmas cover:
  - the bounds on the intervals;
  - the doubling;
  - the reset to 1;
  - the retry cap.
- **Watch selection** (`monitor.dfy`). This covers how the flags are parsed
  and resolved, which watchers are selected, the "nothing to watch" error,
  and the order of clear, create, start and join.

Python values are `Json.Value`. Python exceptions are `Json.PyError`, carried
in `Json.Result`. `d[k]`, `d.get`, `in`, truthiness and `'{}'.format` follow
Python's behaviour on each kind of value.

## Model

| member | source | states |
|---|---|---|
| Store.Cache.Put | mmcontainers/kubernetes.py:69 | `cache[k] = v` inserts or replaces exactly key `k` |
| Store.Cache.Del | mmcontainers/kubernetes.py:66 | `del cache[k]` removes `k`; an absent key raises KeyError and changes nothing |
| Store.Cache.Clear | mmcontainers/monitor.py:52 | `cache.clear()` empties the cache |
| Retry.Inner | mmcontainers/common.py:17-43 | the `while True` loop over (interval, tries) sleeps, calls and ends exactly as the trace function `Run` prescribes from interval 1 and no tries |
| Retry.FirstSleepIsOne | mmcontainers/common.py:18-42 | the first sleep of a run is 1 |
| Retry.SleepsBounded | mmcontainers/common.py:33-43 | every interval slept lies in 0 .. max(1, maxinterval) |
| Retry.Doubling | mmcontainers/common.py:42-43 | without resets and with maxinterval >= 1, the n-th sleep is min(2^(n-1), maxinterval) |
| Retry.SleepsFollowFailures | mmcontainers/common.py:26-42 | sleep j follows failed attempt j; that failure was a retried exception; an attempt longer than `reset` makes its sleep 1 |
| Retry.LastCallDecides | mmcontainers/common.py:21-31 | one sleep between consecutive calls and none after the last; a return ends the loop with Done, an exception outside `exceptions` propagates at once, and a re-raise happens only past the cap |
| Retry.RetryCap | mmcontainers/common.py:29-31 | with maxretries = m > 0, at most m + 1 calls, and the (m + 1)-th retried failure is re-raised |
| Retry.RetryForever | mmcontainers/common.py:30 | maxretries None or 0 never re-raises a retried exception |
| Retry.DefaultsRetryForever | mmcontainers/common.py:11 | with the default arguments (no retry limit, reset 10, maxinterval 30) the wrapper never re-raises a retried exception and never sleeps longer than 30 |
| KubeWatch.CacheKey | mmcontainers/kubernetes.py:32-39 | pod and namespace keys are `prefix/ns/name` and `prefix/name`, always under `prefix + '/'` |
| KubeWatch.KubeWatcher.constructor | mmcontainers/kubernetes.py:13-15 | the watcher keeps the shared cache and its prefix; the prefix parameter defaults to `DefaultPrefix`, `kube` |
| KubeWatch.KubeWatcher.Watch | mmcontainers/kubernetes.py:49-71 | the cache after a stream, the count of one-second sleeps and the ending exception are those of `WatchSpec` |
| KubeWatch.ApplyFrame | mmcontainers/kubernetes.py:58-69 | only the event's key changes; ADDED/MODIFIED store exactly the record; DELETED removes the key and fails with KeyError exactly when it is absent; other types change nothing |
| KubeWatch.UpsertIdempotent | mmcontainers/kubernetes.py:67-69 | applying the same ADDED/MODIFIED event twice equals applying it once |
| KubeWatch.HttpErrorsOnlySleep | mmcontainers/kubernetes.py:70-71 | transport errors only add a sleep each; cache and ending error are those of the stream without them |
| KubeWatch.DeleteOfAbsentKeyEndsWatch | mmcontainers/kubernetes.py:64-71 | a DELETED event for an uncached key raises KeyError, which ends the watch whatever follows |
| KubeWatch.PodAndNamespaceKeysDiffer | mmcontainers/kubernetes.py:35-39 | when names contain no '/', a pod key never equals a namespace key |
| DockerApi.CacheKey | mmcontainers/drivers/docker.py:67-69 | the key is `prefix + '/'` followed by the id's string form |
| DockerApi.CacheKeyInjective | mmcontainers/drivers/docker.py:67-69 | distinct string ids get distinct keys under one prefix |
| DockerApi.Added | mmcontainers/drivers/docker.py:71-88 | a vanished container leaves the cache unchanged; otherwise its key holds `{kind: container, metadata: {labels, image}}`; no other key changes |
| DockerApi.BootstrapCovers | mmcontainers/drivers/docker.py:61-62 | after the bootstrap every listed container that exists has its record; no other key changes |
| DockerDriver.DockerWatcher.constructor | mmcontainers/drivers/docker.py:28-37 | the watcher keeps the shared cache and its prefix; the prefix parameter defaults to `DockerApi.DefaultPrefix`, `docker` |
| DockerDriver.DockerWatcher.AddContainer | mmcontainers/drivers/docker.py:71-88 | the cache becomes `Added` of the old cache |
| DockerDriver.DockerWatcher.RemoveContainer | mmcontainers/drivers/docker.py:90-97 | the key is gone afterwards, whether or not it was there; nothing else changes |
| DockerDriver.DockerWatcher.Watch | mmcontainers/drivers/docker.py:99-116 | cache and ending exception are those of `Replay` over the events |
| DockerDriver.DockerWatcher.Run | mmcontainers/drivers/docker.py:59-62 | the cache becomes `Bootstrap` of the listed containers |
| DockerDriver.DispatchCases | mmcontainers/drivers/docker.py:108-116 | non-container events and actions other than start/die change nothing; start adds; die with `status` `die` removes exactly the container's key, die with another status changes nothing, and die without `status` raises KeyError |
| DockerDriver.RemoveTwiceIsRemoveOnce | mmcontainers/drivers/docker.py:90-97 | a second `die` for the same container changes nothing and raises nothing |
| DockerDriver.VanishedContainerIsHarmless | mmcontainers/drivers/docker.py:71-97 | start then die of a container that cannot be inspected leaves its key absent and the watch running |
| DockerLegacy.Removed | mmcontainers/docker.py:71-75 | strict removal fails with KeyError exactly when the key is absent, else drops only that key |
| DockerLegacy.DockerWatcher.constructor | mmcontainers/docker.py:16-21 | the watcher keeps the shared cache and its prefix; the prefix parameter defaults to `DockerApi.DefaultPrefix`, `docker` |
| DockerLegacy.DockerWatcher.AddContainer | mmcontainers/docker.py:52-69 | the cache becomes `Added` of the old cache |
| DockerLegacy.DockerWatcher.RemoveContainer | mmcontainers/docker.py:71-75 | KeyError exactly when the key was absent; the key is gone afterwards |
| DockerLegacy.DockerWatcher.Watch | mmcontainers/docker.py:81-93 | cache and ending exception are those of `Replay` with create/destroy |
| DockerLegacy.DockerWatcher.Start | mmcontainers/docker.py:43-46 | `add_container` for every listed container, in order |
| DockerLegacy.DispatchCases | mmcontainers/docker.py:84-93 | only container events with Action create/destroy act; create adds; destroy with `status` `destroy` is the strict removal, destroy with another status changes nothing, and destroy without `status` raises KeyError |
| DockerLegacy.VanishedContainerEndsWatch | mmcontainers/docker.py:52-75 | create then destroy of a container that cannot be inspected raises KeyError and ends the watch |
| PodIndex.KubeWatcher.constructor | mmkubernetes/main.py:25-29 | the watcher starts with a fresh, empty dict |
| PodIndex.KubeWatcher.Add | mmkubernetes/main.py:44-57 | the dict and any exception are those of `Added` on the pod record |
| PodIndex.KubeWatcher.Remove | mmkubernetes/main.py:59-68 | the dict and the returned record or exception are those of `Removed` |
| PodIndex.KubeWatcher.Watch | mmkubernetes/main.py:75-104 | the pod stream keys `ns_name`, the namespace stream keys the name; the dict, sleeps and ending exception are those of `WatchSpec` |
| PodIndex.IndexAllFrame | mmkubernetes/main.py:53-55 | the container loop removes nothing, touches only listed ids, completes exactly when every status has a usable id, and then every id holds the record |
| PodIndex.AddIndexes | mmkubernetes/main.py:44-57 | `k` holds the record even if the loop raises; no key is removed, so stale ids stay; only `k` and listed ids change |
| PodIndex.UnindexAllFrame | mmkubernetes/main.py:63-65 | the delete loop completes exactly when the listed ids are usable, pairwise distinct and present, and then removes exactly them; when every id is usable, a failure is KeyError |
| PodIndex.RemoveCases | mmkubernetes/main.py:59-68 | an absent `k` raises KeyError and changes nothing; otherwise `k` is gone; the call succeeds exactly when the listed ids are usable, pairwise distinct and present, and with usable ids any failure is KeyError; success returns the stored record and drops exactly `k` and its ids |
| PodIndex.AddThenRemove | mmkubernetes.py:43-67 | add then remove of a pod with distinct ids other than its key succeeds, returns the added record and leaves the old dict minus the key and ids |
| PodIndex.SharedIdBreaksRemove | mmkubernetes/main.py:53-65 | a pod with two waiting containers (both ids None) is added, but its removal raises KeyError |
| PodIndex.UnindexLenientFrame | mmkubernetes/main.py:63-65 | with `pop(id, None)` the loop completes whenever the ids are usable, and removes exactly the listed ids, shared ones included |
| PodIndex.AddThenRemoveLenient | mmkubernetes/main.py:59-68 | with the lenient removal, add then remove always succeeds, returns the record and removes the key and all its ids |
| PodIndex.ApplyCases | mmkubernetes.py:74-103 | both loops dispatch on the type alone: DELETED removes, ADDED/MODIFIED add, any other type changes nothing |
| PodFilter.CopyFields | mmkubernetes/main.py:141-143 | the `for k in metadata_keys` loop yields `PodFields`, whatever order the set is traversed in |
| PodFilter.PrefixedExact | mmkubernetes/main.py:141-145 | one `pod_<k>` entry per metadata key, holding `metadata[k]`, and no other entries |
| PodFilter.Respond | mmkubernetes/main.py:132-145 | the handler body computes `Handled` |
| PodFilter.Filter.constructor | mmkubernetes/main.py:110-128 | the key set is `MetadataKeys` of the arguments; cache and namespace are kept |
| PodFilter.Filter.HandleMessage | mmkubernetes/main.py:132-145 | the answer is `Handled` for the filter's keys and namespace on the watcher's dict |
| PodFilter.RsyslogFilter.constructor | mmkubernetes.py:106-108 | the filter keeps the watcher's dict |
| PodFilter.RsyslogFilter.HandleMessage | mmkubernetes.py:118-131 | the answer is `Handled` for the five fixed keys under `k8s` |
| PodFilter.MetadataKeysCases | mmkubernetes/main.py:108-128 | the default is {name, namespace}; the given keys are kept; labels/annotations are added exactly when flagged; nothing else is added |
| PodFilter.HandledMisses | mmkubernetes/main.py:133-139 | `{}` when `$!` is missing, `CONTAINER_ID_FULL` is missing, or `docker://<id>` is not cached |
| PodFilter.HandledHit | mmkubernetes/main.py:141-145 | on a hit, `{'$!': {namespace: fields}}` with one `pod_<k>` per key holding `metadata[k]`; fails exactly when a key cannot be read |
| PodFilter.RsyslogHit | mmkubernetes.py:127-131 | a hit answers under `k8s` with exactly pod_name, pod_namespace, pod_labels, pod_annotations, pod_uid |
| ContainersFilter.Filter.constructor | mmcontainers/main.py:20-38 | the key set is `MetadataKeys` of the arguments |
| ContainersFilter.Filter.HandleMessage | mmcontainers/main.py:42-55 | the answer is `Handled` on the string-keyed cache; the cache is only read |
| ContainersFilter.LookupMissesWatcherKeys | mmcontainers/main.py:46 | the lookup key `docker://<id>` never has the `docker/` prefix, so it equals no key a Docker watcher with its default prefix stores (mmcontainers/drivers/docker.py:67-69) |
| ContainersFilter.WatcherCacheNeverHits | mmcontainers/main.py:42-55 | on a cache holding only Docker watcher keys, `handle_message` answers `{}` or raises, never copies metadata |
| Enrich.FilterApp.constructor | mmcontainers/filter.py:21-26 | the filter keeps the shared cache and the `-D`/`-K` flags as parsed (None when absent) |
| Enrich.FilterApp.Prepare | mmcontainers/filter.py:36-40 | both flags None become True; otherwise both are left as given |
| Enrich.EnrichedMisses | mmcontainers/filter.py:60-69 | for `Enriched`, the model of `handle_message`: `{}` when there is no `$!`, no or a false `CONTAINER_ID_FULL`, or no cached `docker/<cid>`; a non-dict `$!` raises AttributeError |
| Enrich.EnrichedHit | mmcontainers/filter.py:45-87 | for `Enriched`, the model of `handle_message`: a hit succeeds exactly when the docker flag is off or the record's metadata holds labels and image, and the Kubernetes flag is off or the pod key can be read and a cached pod's metadata holds name, namespace, labels and annotations; then the answer is `{'$!': update}` with keys within {docker, kubernetes}; docker iff its flag, holding exactly labels and image; kubernetes iff its flag, a pod label and a cached pod, holding exactly name, namespace, labels, annotations |
| Enrich.ContainerKeyMatchesWatcher | mmcontainers/filter.py:66-67 | the lookup key `docker/<cid>` is the key a Docker watcher with its default prefix stores the container under |
| Enrich.PodKeyMatchesWatcher | mmcontainers/filter.py:79-83 | the pod key built from a container's namespace and pod-name labels is the key the Kubernetes watcher with its default prefix stores that pod under |
| Enrich.MissingPodOnlyOmits | mmcontainers/filter.py:79-85 | an uncached pod gives the answer the handler gives without the Kubernetes flag |
| Monitor.MonitorApp.constructor | mmcontainers/monitor.py:7-16 | the app keeps which driver modules imported, the cache and the parsed flags |
| Monitor.ParseArgsCases | mmcontainers/monitor.py:20-39 | for `ParseArgs`: `--watch-X` is accepted only for an imported driver and gives True, an imported driver's absent flag is None, a missing driver's flag is False, and `--watch-X` for a missing driver is a usage error |
| Monitor.MonitorApp.Prepare | mmcontainers/monitor.py:43-49 | the flags become `Resolved` of the old flags |
| Monitor.MonitorApp.Execute | mmcontainers/monitor.py:51-74 | the cache is empty afterwards; the actions and the error are those of `MainSpec` |
| Monitor.Launch | mmcontainers/monitor.py:69-74 | the two loops start every selected watcher in list order and then join every one in the same order |
| Monitor.ResolvedCases | mmcontainers/monitor.py:46-49 | with both flags None, each source is watched exactly when its driver imported; a given flag leaves both as they are, so a None one is not watched |
| Monitor.MainOrder | mmcontainers/monitor.py:52-74 | clear first; "nothing to watch" exactly when no flag is set, and then nothing is created or started; otherwise create, start, join in list order, Kubernetes first |
| Monitor.MissingDriverSelectsNothing | mmcontainers/monitor.py:20-49 | with Docker importable, Kubernetes not and no flags, nothing is selected and the run fails |
| Monitor.NoFlagsWatchesAvailable | mmcontainers/monitor.py:43-49 | with a missing driver's flag left None, a run without flags watches exactly the importable drivers; given flags select exactly their watchers |

## Left out

- Threads are not modelled: daemon flags, `RLock`, thread `start`/`join` and `signal.pause`. Each cache operation is atomic and sequential. `Monitor.MonitorApp.Execute` records the creation, start and join of watchers as actions and does not run them.
- I/O is not modelled: the rsyslog stdin/stdout loop, `json.loads`/`json.dumps`, `dump_cache` with `serialize_as_str`, and logging. The handlers receive a decoded message and return the update.
- The foreign clients are abstract:
  - The Docker SDK is a map from id to (labels, image id); a missing id stands for `NotFound`.
  - The Kubernetes client and `watch.Watch` become finite lists of stream items. Each item is an event or a transport error.
  - The endless `while True` restart is modelled as going on with the remaining items.
- The `backoff` decorators of mmcontainers/drivers/docker.py are not modelled. Neither is the `restart_on` decorator that mmcontainers/docker.py imports but mmcontainers/common.py does not define. The watch loops therefore end at the first exception other than a transport error.
- `diskcache` (`Index`, `FanoutCache`) is a plain map, without persistence or eviction.
- Time is reduced to integers:
  - `time.time` is replaced by each failed call's duration as an integer;
  - `time.sleep` is replaced by the list of intervals slept;
  - floating-point durations are not modelled.
- Numbers in JSON are integers only. Python's equality of `True` and `1` as dict keys is not modelled; in Dafny they are different keys of the pod index.
- DockerApi.CacheKey: `str()` of a list or dict id is a placeholder (`[...]`, `{...}`), not Python's repr. The same holds for PodFilter.LookupKey and Enrich.ContainerKey. Ids that are strings, numbers, booleans or None are exact.
- The Kubernetes object's `status` is always a dict. A `status` of None, where `status.to_dict()` raises AttributeError, is not modelled. The `event.get('Actor', {}).get('ID')` in the debug log of mmcontainers/drivers/docker.py is not modelled either.
- PodIndex.Iterate collapses iteration over a non-empty dict to its outcome (TypeError). The dict's key order is not representable, and the first key already fails to be indexed.
- PodFilter.RsyslogFilter.HandleMessage runs its fixed key list through the same set loop as the configurable Filter. The outcome does not depend on the order, as `PodFilter.CopyFields` shows for any order.
- The namespace of the mmkubernetes Filter is a string. A `namespace=None`, which makes None an output key, is not modelled.
- Argument parsing is reduced to the watch and include flags. An option for a missing driver is an argparse usage error, shown as None in `Monitor.ParseArgs`. The `ApplicationError` handling of `BaseApp.run` (log and exit 1) is not modelled.
- mmcontainers/drivers/kubernetes.py, which mmcontainers/monitor.py imports, is not part of this model. The `main()` functions of mmcontainers/main.py and of both mmkubernetes files are wiring and are not modelled.

## Findings

| source | as written | input that shows it | evidently intended | confidence | as-written member | corrected member |
|---|---|---|---|---|---|---|
| mmcontainers/monitor.py:30-49 | a missing driver's flag defaults to False, so the "both None" defaulting in `prepare` never fires when a driver is missing | Docker importable, Kubernetes not, no flags: nothing is selected and the run fails with "nothing to watch" | with no flags, watch every driver that imported | not executed | Monitor.MissingDriverSelectsNothing | Monitor.NoFlagsWatchesAvailable |
| mmkubernetes/main.py:59-65 | `remove` deletes each listed container id with `del`, so an id listed twice is deleted once and then raises KeyError, which ends the watch | a pod `default/web` with two waiting containers, both with `container_id` None | remove every id the pod listed, tolerating ids already gone | not executed | PodIndex.SharedIdBreaksRemove | PodIndex.AddThenRemoveLenient |
| mmcontainers/docker.py:71-75 | strict `del` of a container key that was never cached raises KeyError and ends the event watch | a `create` then `destroy` of id `c1`, which the daemon can no longer inspect | ignore an absent key, as mmcontainers/drivers/docker.py:94-97 does | not executed | DockerLegacy.VanishedContainerEndsWatch | DockerDriver.VanishedContainerIsHarmless |

=== FILE: containers_filter.dfy ===
/** The Filter of mmcontainers/main.py: the same handler as the Filter of
    mmkubernetes/main.py, reading the string-keyed disk cache instead of the
    watcher's dict. */
module ContainersFilter {
  import opened Json
  import opened Store
  import opened PodFilter
  import DockerApi

  /** The shared cache is keyed by the lookup string itself. */
  function PlainKey(k: string): string {
    k
  }

  class Filter {
    const cache: Cache<string, Value>
    const namespace: string
    var metadataKeys: set<string>

    constructor (cache: Cache<string, Value>, namespace: string, includeAnnotations: bool, includeLabels: bool,
                 metadataKeys: Option<seq<string>>)
      ensures this.cache == cache && this.namespace == namespace
      ensures this.metadataKeys == MetadataKeys(metadataKeys, includeLabels, includeAnnotations)
    {
      this.cache := cache;
      this.namespace := namespace;
      var keys: set<string>;
      match metadataKeys {
        case Some(ks) => keys := KeySet(ks);
        case None => keys := KeySet(DefaultMetadataKeys);
      }
      if includeLabels {
        keys := keys + {"labels"};
      }
      if includeAnnotations {
        keys := keys + {"annotations"};
      }
      this.metadataKeys := keys;
    }

    /** `handle_message(msg)`: only reads the cache. */
    method HandleMessage(msg: map<string, Value>) returns (r: Result<Value>)
      ensures r == Handled(metadataKeys, namespace, cache.entries, PlainKey, msg)
    {
      r := Respond(metadataKeys, namespace, cache.entries, PlainKey, msg);
    }
  }

  /** A Docker watcher key: `'{prefix}/{id}'` under the default prefix. */
  predicate IsWatcherKey(k: string) {
    DockerApi.DefaultPrefix + "/" <= k
  }

  /** The lookup key is `docker://<id>` while the Docker watchers write
      `docker/<id>`: the two differ at their seventh character, so no
      lookup key is ever a watcher key. */
  lemma LookupMissesWatcherKeys(msg: map<string, Value>, k: string)
    requires LookupKey(msg) == Ok(Some(k))
    ensures !IsWatcherKey(k)
    ensures forall cid :: k != DockerApi.CacheKey(DockerApi.DefaultPrefix, cid)
  {
    var id := Index(msg["$!"], "CONTAINER_ID_FULL").value;
    assert k == "docker://" + Show(id);
    assert k[6] == ':';
  }

  /** On a cache that holds only Docker watcher keys, `handle_message`
      never finds a record: it answers `{}` or raises. */
  lemma WatcherCacheNeverHits(keys: set<string>, namespace: string, entries: map<string, Value>, msg: map<string, Value>)
    requires forall k :: k in entries ==> IsWatcherKey(k)
    ensures Handled(keys, namespace, entries, PlainKey, msg).Ok? ==> Handled(keys, namespace, entries, PlainKey, msg) == Ok(EmptyObj)
  {
    var key := LookupKey(msg);
    if key.Ok? && key.value.Some? {
      LookupMissesWatcherKeys(msg, key.value.value);
      HandledMisses(keys, namespace, entries, PlainKey, msg);
    }
  }
}

=== FILE: docker_api.dfy ===
/** What the Docker watchers need from the Docker daemon, and the record and
    key they derive from a container. Both watcher versions
    (mmcontainers/drivers/docker.py and mmcontainers/docker.py) share these. */
module DockerApi {
  import opened Json

  /** `container.labels` and `container.image.id` of an inspected container. */
  datatype Container = Container(labels: Value, imageId: Value)

  /** The containers the daemon can inspect, by id; `containers.get` of an id
      that is not here raises `docker.errors.NotFound`. */
  type Daemon = map<string, Container>

  const DefaultPrefix: string := "docker"

  /** `'{prefix}/{id}'.format(...)`. */
  function CacheKey(prefix: string, cid: Value): (k: string)
    ensures prefix + "/" <= k && k[|prefix| + 1..] == Show(cid)
  {
    prefix + "/" + Show(cid)
  }

  /** Under one prefix, distinct string ids get distinct keys. */
  lemma CacheKeyInjective(prefix: string, a: string, b: string)
    requires CacheKey(prefix, Str(a)) == CacheKey(prefix, Str(b))
    ensures a == b
  {
    PrefixInjective(prefix + "/", a, b);
  }

  /** `{'kind': 'container', 'metadata': {'labels': ..., 'image': ...}}`. */
  function ContainerRecord(c: Container): Value {
    Obj(map["kind" := Str("container"), "metadata" := Obj(map["labels" := c.labels, "image" := c.imageId])])
  }

  /** `containers.get(cid)`: None stands for NotFound. */
  function Inspect(daemon: Daemon, cid: Value): Option<Container> {
    var id := Show(cid);
    if id in daemon then Some(daemon[id]) else None
  }

  /** `add_container(cid)`: store the record of an existing container under
      its key; a container that no longer exists is skipped. */
  function Added(entries: map<string, Value>, prefix: string, daemon: Daemon, cid: Value): (r: map<string, Value>)
    ensures Inspect(daemon, cid).None? ==> r == entries
    ensures Inspect(daemon, cid).Some? ==>
      CacheKey(prefix, cid) in r && r[CacheKey(prefix, cid)] == ContainerRecord(Inspect(daemon, cid).value)
    ensures forall k :: k != CacheKey(prefix, cid) ==> (k in r <==> k in entries) && (k in r ==> r[k] == entries[k])
  {
    match Inspect(daemon, cid)
    case None => entries
    case Some(c) => entries[CacheKey(prefix, cid) := ContainerRecord(c)]
  }

  /** The bootstrap loop: `add_container(container.id)` for every listed
      container, in order. */
  function Bootstrap(entries: map<string, Value>, prefix: string, daemon: Daemon, ids: seq<string>): map<string, Value>
    decreases |ids|
  {
    if ids == [] then entries else Bootstrap(Added(entries, prefix, daemon, Str(ids[0])), prefix, daemon, ids[1..])
  }

  /** After the bootstrap every listed container that still exists has its
      record under its key; a key that belongs to no such container keeps its
      old value (or stays absent). */
  lemma {:induction false} BootstrapCovers(entries: map<string, Value>, prefix: string, daemon: Daemon, ids: seq<string>)
    ensures var r := Bootstrap(entries, prefix, daemon, ids);
      && (forall j :: 0 <= j < |ids| && ids[j] in daemon ==>
            CacheKey(prefix, Str(ids[j])) in r && r[CacheKey(prefix, Str(ids[j]))] == ContainerRecord(daemon[ids[j]]))
      && (forall k :: (forall j :: 0 <= j < |ids| && ids[j] in daemon ==> k != CacheKey(prefix, Str(ids[j]))) ==>
            (k in r <==> k in entries) && (k in r ==> r[k] == entries[k]))
    decreases |ids|
  {
    if ids != [] {
      var next := Added(entries, prefix, daemon, Str(ids[0]));
      BootstrapCovers(next, prefix, daemon, ids[1..]);
      var r := Bootstrap(entries, prefix, daemon, ids);
      assert r == Bootstrap(next, prefix, daemon, ids[1..]);
      forall j | 0 <= j < |ids| && ids[j] in daemon
        ensures CacheKey(prefix, Str(ids[j])) in r && r[CacheKey(prefix, Str(ids[j]))] == ContainerRecord(daemon[ids[j]])
      {
        if j == 0 {
          var k := CacheKey(prefix, Str(ids[0]));
          if exists i :: 0 <= i < |ids[1..]| && ids[1..][i] in daemon && k == CacheKey(prefix, Str(ids[1..][i])) {
            var i :| 0 <= i < |ids[1..]| && ids[1..][i] in daemon && k == CacheKey(prefix, Str(ids[1..][i]));
            CacheKeyInjective(prefix, ids[0], ids[1..][i]);
          }
        } else {
          assert ids[j] == ids[1..][j - 1];
        }
      }
      forall k | (forall j :: 0 <= j < |ids| && ids[j] in daemon ==> k != CacheKey(prefix, Str(ids[j])))
        ensures (k in r <==> k in entries) && (k in r ==> r[k] == entries[k])
      {
        forall i | 0 <= i < |ids[1..]| && ids[1..][i] in daemon ensures k != CacheKey(prefix, Str(ids[1..][i])) {
          assert ids[1..][i] == ids[i + 1];
        }
      }
    }
  }
}

=== FILE: docker_driver.dfy ===
/** The Docker watcher of mmcontainers/drivers/docker.py: a bootstrap over
    the running containers, then one cache update per `start` or `die`
    container event. Removal is lenient: a key that is not cached is
    ignored. */
module DockerDriver {
  import opened Json
  import opened Store
  import opened DockerApi

  /** One decoded event from `api.events()`: a JSON object. */
  type DockerEvent = map<string, Value>

  /** The body of the `for event in events` loop: events that are not about
      a container, or whose Action is neither `start` nor `die`, are skipped;
      `start` adds the container; otherwise the container is removed when the
      event's `status` is `die`. A missing `id` or `status` raises KeyError. */
  function Dispatch(entries: map<string, Value>, prefix: string, daemon: Daemon, event: DockerEvent): Result<map<string, Value>> {
    if Get(event, "Type") != Str("container") then Ok(entries)
    else if Get(event, "Action") !in [Str("start"), Str("die")] then Ok(entries)
    else if event["Action"] == Str("start") then
      if "id" in event then Ok(Added(entries, prefix, daemon, event["id"])) else Err(KeyError)
    else if "status" !in event then Err(KeyError)
    else if event["status"] == Str("die") then
      if "id" in event then Ok(entries - {CacheKey(prefix, event["id"])}) else Err(KeyError)
    else Ok(entries)
  }

  /** The cache after a run of events and the exception that ended it, if any. */
  datatype Replayed = Replayed(entries: map<string, Value>, error: Option<PyError>)

  function Replay(entries: map<string, Value>, prefix: string, daemon: Daemon, events: seq<DockerEvent>): Replayed
    decreases |events|
  {
    if events == [] then Replayed(entries, None)
    else match Dispatch(entries, prefix, daemon, events[0])
      case Err(e) => Replayed(entries, Some(e))
      case Ok(next) => Replay(next, prefix, daemon, events[1..])
  }

  class DockerWatcher {
    const prefix: string
    const cache: Cache<string, Value>

    constructor (cache: Cache<string, Value>, prefix: string := DefaultPrefix)
      ensures this.cache == cache && this.prefix == prefix
    {
      this.cache := cache;
      this.prefix := prefix;
    }

    /** `add_container(cid)`. */
    method AddContainer(daemon: Daemon, cid: Value)
      modifies cache
      ensures cache.entries == Added(old(cache.entries), prefix, daemon, cid)
    {
      var key := CacheKey(prefix, cid);
      var container := Inspect(daemon, cid);
      if container.None? {
        return;
      }
      cache.Put(key, ContainerRecord(container.value));
    }

    /** `remove_container(cid)`: `del` under `except KeyError: pass`. */
    method RemoveContainer(cid: Value)
      modifies cache
      ensures cache.entries == old(cache.entries) - {CacheKey(prefix, cid)}
    {
      var key := CacheKey(prefix, cid);
      var _ := cache.Del(key);
    }

    /** `watch()`: apply the events in order until one raises. */
    method Watch(daemon: Daemon, events: seq<DockerEvent>) returns (error: Option<PyError>)
      modifies cache
      ensures Replayed(cache.entries, error) == Replay(old(cache.entries), prefix, daemon, events)
    {
      var n := 0;
      while n < |events|
        invariant n <= |events|
        invariant Replay(cache.entries, prefix, daemon, events[n..]) == Replay(old(cache.entries), prefix, daemon, events)
      {
        assert events[n..][1..] == events[n + 1..];
        var event := events[n];
        if Get(event, "Type") != Str("container") || Get(event, "Action") !in [Str("start"), Str("die")] {
          n := n + 1;
          continue;
        }
        if event["Action"] == Str("start") {
          if "id" !in event {
            return Some(KeyError);
          }
          AddContainer(daemon, event["id"]);
        } else {
          if "status" !in event {
            return Some(KeyError);
          }
          if event["status"] == Str("die") {
            if "id" !in event {
              return Some(KeyError);
            }
            RemoveContainer(event["id"]);
          }
        }
        n := n + 1;
      }
      assert events[n..] == [];
      return None;
    }

    /** The bootstrap in `run()`: add every container the daemon lists. */
    method Run(daemon: Daemon, listed: seq<string>)
      modifies cache
      ensures cache.entries == Bootstrap(old(cache.entries), prefix, daemon, listed)
    {
      var n := 0;
      while n < |listed|
        invariant n <= |listed|
        invariant Bootstrap(cache.entries, prefix, daemon, listed[n..]) == Bootstrap(old(cache.entries), prefix, daemon, listed)
      {
        assert listed[n..][1..] == listed[n + 1..];
        AddContainer(daemon, Str(listed[n]));
        n := n + 1;
      }
      assert listed[n..] == [];
    }
  }

  /** Only container events with Action `start` or `die` act; `die` removes
      only when `status` is `die`; a `start` of a container that has vanished
      changes nothing. */
  lemma DispatchCases(entries: map<string, Value>, prefix: string, daemon: Daemon, event: DockerEvent)
    ensures Get(event, "Type") != Str("container") ==> Dispatch(entries, prefix, daemon, event) == Ok(entries)
    ensures Get(event, "Action") != Str("start") && Get(event, "Action") != Str("die") ==>
      Dispatch(entries, prefix, daemon, event) == Ok(entries)
    ensures Get(event, "Type") == Str("container") && Get(event, "Action") == Str("start") && "id" in event ==>
      Dispatch(entries, prefix, daemon, event) == Ok(Added(entries, prefix, daemon, event["id"]))
    ensures Get(event, "Type") == Str("container") && Get(event, "Action") == Str("die") && Get(event, "status") == Str("die") && "id" in event ==>
      Dispatch(entries, prefix, daemon, event) == Ok(entries - {CacheKey(prefix, event["id"])})
    ensures Get(event, "Type") == Str("container") && Get(event, "Action") == Str("die") && "status" in event && event["status"] != Str("die") ==>
      Dispatch(entries, prefix, daemon, event) == Ok(entries)
    ensures Get(event, "Type") == Str("container") && Get(event, "Action") == Str("die") && "status" !in event ==>
      Dispatch(entries, prefix, daemon, event) == Err(KeyError)
  {
  }

  /** Removal is idempotent: a second `die` for the same container leaves
      the cache as the first left it, and raises nothing. */
  lemma RemoveTwiceIsRemoveOnce(entries: map<string, Value>, prefix: string, daemon: Daemon, die: DockerEvent)
    requires Get(die, "Type") == Str("container") && Get(die, "Action") == Str("die")
    requires Get(die, "status") == Str("die") && "id" in die
    ensures Replay(entries, prefix, daemon, [die, die]) == Replay(entries, prefix, daemon, [die])
    ensures Replay(entries, prefix, daemon, [die]) == Replayed(entries - {CacheKey(prefix, die["id"])}, None)
  {
    var once := entries - {CacheKey(prefix, die["id"])};
    assert once - {CacheKey(prefix, die["id"])} == once;
    assert [die, die][1..] == [die];
  }

  /** The `start` and `die` events of a container. */
  function Lifecycle(cid: Value): seq<DockerEvent> {
    [map["Type" := Str("container"), "Action" := Str("start"), "status" := Str("start"), "id" := cid],
     map["Type" := Str("container"), "Action" := Str("die"), "status" := Str("die"), "id" := cid]]
  }

  /** A container that starts and is gone before it can be inspected leaves
      the cache without its key and the watch running: the `die` of an
      uncached container raises nothing. */
  lemma VanishedContainerIsHarmless(entries: map<string, Value>, prefix: string, daemon: Daemon, cid: Value)
    requires Inspect(daemon, cid).None?
    ensures Replay(entries, prefix, daemon, Lifecycle(cid)) == Replayed(entries - {CacheKey(prefix, cid)}, None)
  {
    var events := Lifecycle(cid);
    assert Dispatch(entries, prefix, daemon, events[0]) == Ok(entries);
    assert events[1..] == [events[1]];
    var after := entries - {CacheKey(prefix, cid)};
    assert Dispatch(entries, prefix, daemon, events[1]) == Ok(after);
    assert Replay(entries, prefix, daemon, events[1..]) == Replay(after, prefix, daemon, []);
  }
}

=== FILE: docker_legacy.dfy ===
/** The earlier Docker watcher of mmcontainers/docker.py: the same cache
    updates driven by `create` and `destroy` events, with a strict removal
    that raises KeyError when the container's key is not cached. */
module DockerLegacy {
  import opened Json
  import opened Store
  import opened DockerApi

  type DockerEvent = map<string, Value>

  /** `remove_container(cid)` with an unguarded `del`. */
  function Removed(entries: map<string, Value>, prefix: string, cid: Value): (r: Result<map<string, Value>>)
    ensures r.Err? <==> CacheKey(prefix, cid) !in entries
    ensures r.Err? ==> r.error == KeyError
    ensures r.Ok? ==> r.value == entries - {CacheKey(prefix, cid)}
  {
    var key := CacheKey(prefix, cid);
    if key in entries then Ok(entries - {key}) else Err(KeyError)
  }

  /** The body of the `for event in events` loop, with `create` and
      `destroy` in place of `start` and `die`. */
  function Dispatch(entries: map<string, Value>, prefix: string, daemon: Daemon, event: DockerEvent): Result<map<string, Value>> {
    if Get(event, "Type") != Str("container") then Ok(entries)
    else if Get(event, "Action") !in [Str("create"), Str("destroy")] then Ok(entries)
    else if event["Action"] == Str("create") then
      if "id" in event then Ok(Added(entries, prefix, daemon, event["id"])) else Err(KeyError)
    else if "status" !in event then Err(KeyError)
    else if event["status"] == Str("destroy") then
      if "id" in event then Removed(entries, prefix, event["id"]) else Err(KeyError)
    else Ok(entries)
  }

  datatype Replayed = Replayed(entries: map<string, Value>, error: Option<PyError>)

  function Replay(entries: map<string, Value>, prefix: string, daemon: Daemon, events: seq<DockerEvent>): Replayed
    decreases |events|
  {
    if events == [] then Replayed(entries, None)
    else match Dispatch(entries, prefix, daemon, events[0])
      case Err(e) => Replayed(entries, Some(e))
      case Ok(next) => Replay(next, prefix, daemon, events[1..])
  }

  class DockerWatcher {
    const prefix: string
    const cache: Cache<string, Value>

    constructor (cache: Cache<string, Value>, prefix: string := DefaultPrefix)
      ensures this.cache == cache && this.prefix == prefix
    {
      this.cache := cache;
      this.prefix := prefix;
    }

    /** `add_container(cid)`. */
    method AddContainer(daemon: Daemon, cid: Value)
      modifies cache
      ensures cache.entries == Added(old(cache.entries), prefix, daemon, cid)
    {
      var key := CacheKey(prefix, cid);
      var container := Inspect(daemon, cid);
      if container.None? {
        return;
      }
      cache.Put(key, ContainerRecord(container.value));
    }

    /** `remove_container(cid)`: the KeyError of an absent key escapes. */
    method RemoveContainer(cid: Value) returns (r: Result<()>)
      modifies cache
      ensures r == (if CacheKey(prefix, cid) in old(cache.entries) then Ok(()) else Err(KeyError))
      ensures cache.entries == old(cache.entries) - {CacheKey(prefix, cid)}
    {
      var key := CacheKey(prefix, cid);
      r := cache.Del(key);
    }

    /** `watch()`: apply the events in order until one raises. */
    method Watch(daemon: Daemon, events: seq<DockerEvent>) returns (error: Option<PyError>)
      modifies cache
      ensures Replayed(cache.entries, error) == Replay(old(cache.entries), prefix, daemon, events)
    {
      var n := 0;
      while n < |events|
        invariant n <= |events|
        invariant Replay(cache.entries, prefix, daemon, events[n..]) == Replay(old(cache.entries), prefix, daemon, events)
      {
        assert events[n..][1..] == events[n + 1..];
        var event := events[n];
        if Get(event, "Type") != Str("container") || Get(event, "Action") !in [Str("create"), Str("destroy")] {
          n := n + 1;
          continue;
        }
        if event["Action"] == Str("create") {
          if "id" !in event {
            return Some(KeyError);
          }
          AddContainer(daemon, event["id"]);
        } else {
          if "status" !in event {
            return Some(KeyError);
          }
          if event["status"] == Str("destroy") {
            if "id" !in event {
              return Some(KeyError);
            }
            ghost var before := cache.entries;
            var r := RemoveContainer(event["id"]);
            if r.Err? {
              assert Dispatch(before, prefix, daemon, event) == Err(KeyError);
              return Some(r.error);
            }
          }
        }
        n := n + 1;
      }
      assert events[n..] == [];
      return None;
    }

    /** The bootstrap in `start()`: add every container the daemon lists. */
    method Start(daemon: Daemon, listed: seq<string>)
      modifies cache
      ensures cache.entries == Bootstrap(old(cache.entries), prefix, daemon, listed)
    {
      var n := 0;
      while n < |listed|
        invariant n <= |listed|
        invariant Bootstrap(cache.entries, prefix, daemon, listed[n..]) == Bootstrap(old(cache.entries), prefix, daemon, listed)
      {
        assert listed[n..][1..] == listed[n + 1..];
        AddContainer(daemon, Str(listed[n]));
        n := n + 1;
      }
      assert listed[n..] == [];
    }
  }

  /** Only container events with Action `create` or `destroy` act;
      `destroy` removes only when `status` is `destroy`, and a `destroy`
      without `status` raises KeyError. */
  lemma DispatchCases(entries: map<string, Value>, prefix: string, daemon: Daemon, event: DockerEvent)
    ensures Get(event, "Type") != Str("container") ==> Dispatch(entries, prefix, daemon, event) == Ok(entries)
    ensures Get(event, "Action") != Str("create") && Get(event, "Action") != Str("destroy") ==>
      Dispatch(entries, prefix, daemon, event) == Ok(entries)
    ensures Get(event, "Type") == Str("container") && Get(event, "Action") == Str("create") && "id" in event ==>
      Dispatch(entries, prefix, daemon, event) == Ok(Added(entries, prefix, daemon, event["id"]))
    ensures Get(event, "Type") == Str("container") && Get(event, "Action") == Str("destroy") && Get(event, "status") == Str("destroy") && "id" in event ==>
      Dispatch(entries, prefix, daemon, event) == Removed(entries, prefix, event["id"])
    ensures Get(event, "Type") == Str("container") && Get(event, "Action") == Str("destroy") && "status" in event && event["status"] != Str("destroy") ==>
      Dispatch(entries, prefix, daemon, event) == Ok(entries)
    ensures Get(event, "Type") == Str("container") && Get(event, "Action") == Str("destroy") && "status" !in event ==>
      Dispatch(entries, prefix, daemon, event) == Err(KeyError)
  {
  }

  /** The `create` and `destroy` events of a container. */
  function Lifecycle(cid: Value): seq<DockerEvent> {
    [map["Type" := Str("container"), "Action" := Str("create"), "status" := Str("create"), "id" := cid],
     map["Type" := Str("container"), "Action" := Str("destroy"), "status" := Str("destroy"), "id" := cid]]
  }

  /** A container that is created and gone before it can be inspected is
      never cached, so its `destroy` event makes the strict removal raise
      KeyError and ends the watch. */
  lemma VanishedContainerEndsWatch(entries: map<string, Value>, prefix: string, daemon: Daemon, cid: Value)
    requires Inspect(daemon, cid).None? && CacheKey(prefix, cid) !in entries
    ensures Replay(entries, prefix, daemon, Lifecycle(cid)) == Replayed(entries, Some(KeyError))
  {
    var events := Lifecycle(cid);
    assert Dispatch(entries, prefix, daemon, events[0]) == Ok(entries);
    assert events[1..] == [events[1]];
  }
}

=== FILE: enrich.dfy ===
/** The rsyslog message handler of mmcontainers/filter.py: look the
    message's container up in the shared cache under `docker/<id>`, copy the
    container's labels and image, and follow the container's Kubernetes
    labels to the pod record under `kube/<namespace>/<pod>`. */
module Enrich {
  import opened Json
  import opened Store
  import DockerApi
  import KubeApi
  import KubeWatch

  const NamespaceLabel: string := "io.kubernetes.pod.namespace"
  const PodLabel: string := "io.kubernetes.pod.name"

  /** `msg.get('$!', {}).get('CONTAINER_ID_FULL')`. */
  function ContainerId(msg: map<string, Value>): Result<Value> {
    GetOr(if "$!" in msg then msg["$!"] else EmptyObj, "CONTAINER_ID_FULL", Null)
  }

  /** `'docker/{}'.format(cid)`. */
  function ContainerKey(cid: Value): string {
    "docker/" + Show(cid)
  }

  /** `add_docker_metadata(update, data)`, returning the updated dict. */
  function AddDockerMetadata(update: map<string, Value>, data: Value): Result<map<string, Value>> {
    var md :- Index(data, "metadata");
    var labels :- Index(md, "labels");
    var image :- Index(md, "image");
    Ok(update["docker" := Obj(map["labels" := labels, "image" := image])])
  }

  /** `add_kubernetes_metadata(update, data)`, returning the updated dict. */
  function AddKubernetesMetadata(update: map<string, Value>, data: Value): Result<map<string, Value>> {
    var md :- Index(data, "metadata");
    var name :- Index(md, "name");
    var namespace :- Index(md, "namespace");
    var labels :- Index(md, "labels");
    var annotations :- Index(md, "annotations");
    Ok(update["kubernetes" := Obj(map["name" := name, "namespace" := namespace, "labels" := labels, "annotations" := annotations])])
  }

  /** The pod a container record names through its Kubernetes labels:
      `'kube/{ns}/{pod}'` when the labels hold the namespace label, none
      otherwise; the pod-name label must then be present too. */
  function PodKey(data: Value): Result<Option<string>> {
    var md :- Index(data, "metadata");
    var labels :- Index(md, "labels");
    var named :- Contains(labels, NamespaceLabel);
    if !named then Ok(None)
    else
      var ns :- Index(labels, NamespaceLabel);
      var pod :- Index(labels, PodLabel);
      Ok(Some("kube/" + Show(ns) + "/" + Show(pod)))
  }

  /** The Kubernetes branch of `handle_message`: a pod record that is not
      cached is skipped. */
  function AddPod(update: map<string, Value>, entries: map<string, Value>, data: Value): Result<map<string, Value>> {
    var key :- PodKey(data);
    match key
    case None => Ok(update)
    case Some(k) =>
      var pod := Lookup(entries, k);
      if pod == Null then Ok(update) else AddKubernetesMetadata(update, pod)
  }

  /** A command-line flag as `if flag:` reads it (None is false). */
  predicate Set(flag: Option<bool>) {
    flag == Some(true)
  }

  /** `handle_message(msg)` with the two include flags. */
  function Enriched(includeDocker: Option<bool>, includeKubernetes: Option<bool>, entries: map<string, Value>,
                    msg: map<string, Value>): Result<Value> {
    var cid :- ContainerId(msg);
    if !Truthy(cid) then Ok(EmptyObj)
    else
      var data := Lookup(entries, ContainerKey(cid));
      if data == Null then Ok(EmptyObj)
      else
        var withDocker :- if Set(includeDocker) then AddDockerMetadata(map[], data) else Ok(map[]);
        var update :- if Set(includeKubernetes) then AddPod(withDocker, entries, data) else Ok(withDocker);
        Ok(Obj(map["$!" := Obj(update)]))
  }

  class FilterApp {
    var includeDocker: Option<bool>
    var includeKubernetes: Option<bool>
    const cache: Cache<string, Value>

    /** The parsed `-D` and `-K` flags (`store_true` with default None). */
    constructor (cache: Cache<string, Value>, includeDocker: Option<bool>, includeKubernetes: Option<bool>)
      ensures this.cache == cache
      ensures this.includeDocker == includeDocker && this.includeKubernetes == includeKubernetes
    {
      this.cache := cache;
      this.includeDocker := includeDocker;
      this.includeKubernetes := includeKubernetes;
    }

    /** `prepare()`: when neither flag was given, include both kinds. */
    method Prepare()
      modifies this
      ensures old(includeDocker).None? && old(includeKubernetes).None? ==>
        includeDocker == Some(true) && includeKubernetes == Some(true)
      ensures !(old(includeDocker).None? && old(includeKubernetes).None?) ==>
        includeDocker == old(includeDocker) && includeKubernetes == old(includeKubernetes)
    {
      if includeDocker.None? && includeKubernetes.None? {
        includeDocker := Some(true);
        includeKubernetes := Some(true);
      }
    }

    /** `handle_message(msg)`: reads the cache and the flags only. */
    function HandleMessage(msg: map<string, Value>): Result<Value>
      reads this, cache
    {
      Enriched(includeDocker, includeKubernetes, cache.entries, msg)
    }
  }

  /** The `{}` answers: no container id (no `$!`, no `CONTAINER_ID_FULL`,
      or a false one such as ""), or no cached container record; a `$!`
      that is not a dict has no `get` and raises AttributeError. */
  lemma EnrichedMisses(includeDocker: Option<bool>, includeKubernetes: Option<bool>, entries: map<string, Value>,
                       msg: map<string, Value>)
    ensures var r := Enriched(includeDocker, includeKubernetes, entries, msg);
      && ("$!" !in msg ==> r == Ok(EmptyObj))
      && ("$!" in msg && !msg["$!"].Obj? ==> r == Err(AttributeError))
      && ("$!" in msg && msg["$!"].Obj? && !Truthy(Get(msg["$!"].fields, "CONTAINER_ID_FULL")) ==> r == Ok(EmptyObj))
      && (ContainerId(msg).Ok? && ContainerKey(ContainerId(msg).value) !in entries ==> r == Ok(EmptyObj))
  {
  }

  /** On a cached container the answer is `{'$!': update}` where `update`
      has at most the parts `docker` and `kubernetes`; `docker` is there
      exactly when its flag is set and holds the record's labels and image;
      `kubernetes` is there exactly when its flag is set, the labels name a
      pod and that pod is cached, and holds the pod's name, namespace,
      labels and annotations. */
  lemma EnrichedHit(includeDocker: Option<bool>, includeKubernetes: Option<bool>, entries: map<string, Value>,
                    msg: map<string, Value>, cid: Value)
    requires ContainerId(msg) == Ok(cid) && Truthy(cid) && Lookup(entries, ContainerKey(cid)) != Null
    ensures var data := Lookup(entries, ContainerKey(cid));
      var r := Enriched(includeDocker, includeKubernetes, entries, msg);
      && (r.Ok? <==>
            && (Set(includeDocker) ==>
                  && data.Obj? && "metadata" in data.fields && data.fields["metadata"].Obj?
                  && "labels" in data.fields["metadata"].fields && "image" in data.fields["metadata"].fields)
            && (Set(includeKubernetes) ==>
                  && PodKey(data).Ok?
                  && (PodKey(data).value.Some? && Lookup(entries, PodKey(data).value.value) != Null ==>
                        var pod := Lookup(entries, PodKey(data).value.value);
                        && pod.Obj? && "metadata" in pod.fields && pod.fields["metadata"].Obj?
                        && var md := pod.fields["metadata"].fields;
                        && "name" in md && "namespace" in md && "labels" in md && "annotations" in md)))
      && (r.Ok? ==>
        && r.value.Obj? && r.value.fields.Keys == {"$!"} && r.value.fields["$!"].Obj?
        && var update := r.value.fields["$!"].fields;
        && update.Keys <= {"docker", "kubernetes"}
        && ("docker" in update <==> Set(includeDocker))
        && ("docker" in update ==>
              && data.Obj? && "metadata" in data.fields && data.fields["metadata"].Obj?
              && var md := data.fields["metadata"].fields;
              && "labels" in md && "image" in md
              && update["docker"] == Obj(map["labels" := md["labels"], "image" := md["image"]]))
        && ("kubernetes" in update <==>
              Set(includeKubernetes) && PodKey(data).Ok? && PodKey(data).value.Some?
              && Lookup(entries, PodKey(data).value.value) != Null)
        && ("kubernetes" in update ==>
              var pod := Lookup(entries, PodKey(data).value.value);
              && pod.Obj? && "metadata" in pod.fields && pod.fields["metadata"].Obj?
              && var md := pod.fields["metadata"].fields;
              && "name" in md && "namespace" in md && "labels" in md && "annotations" in md
              && update["kubernetes"] == Obj(map["name" := md["name"], "namespace" := md["namespace"],
                                                 "labels" := md["labels"], "annotations" := md["annotations"]])))
  {
    var data := Lookup(entries, ContainerKey(cid));
    var withDocker := if Set(includeDocker) then AddDockerMetadata(map[], data) else Ok(map[]);
    if withDocker.Ok? && Set(includeKubernetes) {
      var key := PodKey(data);
      if key.Ok? && key.value.Some? && Lookup(entries, key.value.value) != Null {
        assert AddPod(withDocker.value, entries, data) == AddKubernetesMetadata(withDocker.value, Lookup(entries, key.value.value));
      }
    }
  }

  /** A pod record that is not cached is not an error: the answer is the
      one the handler gives without the Kubernetes flag. */
  lemma MissingPodOnlyOmits(includeDocker: Option<bool>, entries: map<string, Value>, msg: map<string, Value>, cid: Value, pod: string)
    requires ContainerId(msg) == Ok(cid) && Truthy(cid)
    requires PodKey(Lookup(entries, ContainerKey(cid))) == Ok(Some(pod)) && pod !in entries
    ensures Enriched(includeDocker, Some(true), entries, msg) == Enriched(includeDocker, None, entries, msg)
  {
  }

  /** The Docker watchers, built without a prefix, store a container under
      the key this handler looks it up by. */
  lemma ContainerKeyMatchesWatcher(cid: Value)
    ensures ContainerKey(cid) == DockerApi.CacheKey(DockerApi.DefaultPrefix, cid)
  {
  }

  /** The Kubernetes watcher, built without a prefix, stores a pod under the
      key this handler derives from the container labels that name it. */
  lemma PodKeyMatchesWatcher(data: Value, m: KubeApi.ObjectMeta)
    requires data.Obj? && "metadata" in data.fields && data.fields["metadata"].Obj?
    requires "labels" in data.fields["metadata"].fields
    requires var labels := data.fields["metadata"].fields["labels"];
      && labels.Obj? && NamespaceLabel in labels.fields && PodLabel in labels.fields
      && labels.fields[NamespaceLabel] == OptStr(m.namespace) && labels.fields[PodLabel] == OptStr(m.name)
    ensures PodKey(data) == Ok(Some(KubeWatch.CacheKey(KubeWatch.PodKeys, KubeWatch.DefaultPrefix, m)))
  {
    assert Show(OptStr(m.namespace)) == Fmt(m.namespace);
    assert Show(OptStr(m.name)) == Fmt(m.name);
    assert KubeWatch.DefaultPrefix + "/" == "kube/";
  }
}

=== FILE: json.dfy ===
/** JSON-like values as the Python code sees them after `json.loads`, the
    exceptions the modelled code can raise, and the handful of Python
    operations on values that the watchers and filters use (`d[k]`, `d.get`,
    `k in d`, truthiness and `'{}'.format`). */
module Json {

  datatype Option<+T> = None | Some(value: T)

  /** The Python exceptions that escape from the modelled code. */
  datatype PyError = KeyError | TypeError | AttributeError | ValueError

  datatype Result<+T> = Ok(value: T) | Err(error: PyError) {
    predicate IsFailure() { Err? }

    function PropagateFailure<U>(): Result<U>
      requires Err?
    {
      Err(error)
    }

    function Extract(): T
      requires Ok?
    {
      value
    }
  }

  /** A decoded JSON document. Objects are Python dicts with string keys;
      numbers are integers only. */
  datatype Value =
    | Null
    | Bool(b: bool)
    | Int(i: int)
    | Str(s: string)
    | Arr(items: seq<Value>)
    | Obj(fields: map<string, Value>)

  const EmptyObj: Value := Obj(map[])

  /** Python truthiness: None, False, 0, "", [] and {} are false. */
  predicate Truthy(v: Value) {
    match v
    case Null => false
    case Bool(b) => b
    case Int(i) => i != 0
    case Str(s) => s != ""
    case Arr(xs) => xs != []
    case Obj(m) => m != map[]
  }

  /** `v[k]` with a string key: a dict without `k` raises KeyError, anything
      that is not a dict (a list, a str, a number, None) raises TypeError. */
  function Index(v: Value, k: string): Result<Value> {
    match v
    case Obj(m) => if k in m then Ok(m[k]) else Err(KeyError)
    case _ => Err(TypeError)
  }

  /** `v.get(k, default)`: only dicts have a `get` method. */
  function GetOr(v: Value, k: string, default: Value): Result<Value> {
    match v
    case Obj(m) => Ok(if k in m then m[k] else default)
    case _ => Err(AttributeError)
  }

  /** `d.get(k)` on the decoded top-level message. */
  function Get(d: map<string, Value>, k: string): Value {
    if k in d then d[k] else Null
  }

  /** `t` occurs in `s` as a contiguous piece (Python's `t in s` on strings). */
  predicate Occurs(t: string, s: string)
    decreases |s|
  {
    t <= s || (s != [] && Occurs(t, s[1..]))
  }

  /** `k in v`: key membership for a dict, element equality for a list,
      substring search for a str; numbers, booleans and None raise TypeError. */
  function Contains(v: Value, k: string): Result<bool> {
    match v
    case Obj(m) => Ok(k in m)
    case Arr(xs) => Ok(Str(k) in xs)
    case Str(s) => Ok(Occurs(k, s))
    case _ => Err(TypeError)
  }

  function DigitChar(d: nat): char
    requires d < 10
  {
    "0123456789"[d]
  }

  function NatToString(n: nat): (r: string)
    ensures r != []
  {
    if n < 10 then [DigitChar(n)] else NatToString(n / 10) + [DigitChar(n % 10)]
  }

  /** `str(v)`, which is what `'{}'.format(v)` inserts. Exact for str, int,
      bool and None; lists and dicts get a placeholder rendering. */
  function Show(v: Value): string {
    match v
    case Null => "None"
    case Bool(b) => if b then "True" else "False"
    case Int(i) => if i < 0 then "-" + NatToString(-i) else NatToString(i)
    case Str(s) => s
    case Arr(_) => "[...]"
    case Obj(_) => "{...}"
  }

  /** An optional string attribute of a client object, as a JSON value. */
  function OptStr(o: Option<string>): Value {
    match o
    case None => Null
    case Some(s) => Str(s)
  }

  /** `'{}'.format(o)` for an optional string attribute. */
  function Fmt(o: Option<string>): string {
    match o
    case None => "None"
    case Some(s) => s
  }

  /** The number of `c` characters in `s`. */
  function CountChar(c: char, s: string): nat {
    if s == [] then 0 else (if s[0] == c then 1 else 0) + CountChar(c, s[1..])
  }

  lemma {:induction false} CountCharConcat(c: char, a: string, b: string)
    ensures CountChar(c, a + b) == CountChar(c, a) + CountChar(c, b)
  {
    if a != [] {
      assert (a + b)[1..] == a[1..] + b;
      CountCharConcat(c, a[1..], b);
    } else {
      assert a + b == b;
    }
  }

  /** Prepending the same prefix keeps distinct strings distinct. */
  lemma PrefixInjective(p: string, a: string, b: string)
    requires p + a == p + b
    ensures a == b
  {
    assert a == (p + a)[|p|..];
    assert b == (p + b)[|p|..];
  }
}

=== FILE: kube_api.dfy ===
/** What the Kubernetes client hands the watchers: watch events whose object
    carries a kind, an ObjectMeta and a status, and the record the watchers
    store for such an object. The client itself and its HTTP streams are
    not modelled: a stream is a finite list of items, each an event or a
    transport error. */
module KubeApi {
  import opened Json

  /** `object.metadata`: the name and namespace attributes (None when unset)
      and the other fields of `metadata.to_dict()` (labels, annotations,
      uid, ...). */
  datatype ObjectMeta = ObjectMeta(name: Option<string>, namespace: Option<string>, rest: map<string, Value>)

  /** `event['object']`; `status` is `status.to_dict()`. */
  datatype KubeObject = KubeObject(kind: Option<string>, metadata: ObjectMeta, status: map<string, Value>)

  /** One event of `watch.Watch().stream(...)`: `event['type']` and `event['object']`. */
  datatype WatchEvent = WatchEvent(eventType: string, obj: KubeObject)

  /** What a watch stream delivers: an event, or a `urllib3` HTTPError that
      breaks the stream (after which the watcher sleeps and streams again). */
  datatype StreamItem = Event(event: WatchEvent) | HttpError

  /** `metadata.to_dict()`. */
  function MetaDict(m: ObjectMeta): map<string, Value> {
    m.rest["name" := OptStr(m.name)]["namespace" := OptStr(m.namespace)]
  }

  /** The stored record `{'kind': ..., 'metadata': ..., 'status': ...}`. */
  function RecordOf(o: KubeObject): Value {
    Obj(map["kind" := OptStr(o.kind), "metadata" := Obj(MetaDict(o.metadata)), "status" := Obj(o.status)])
  }

  /** The event types that store the object. */
  predicate IsUpsert(eventType: string) {
    eventType == "MODIFIED" || eventType == "ADDED"
  }

  /** The events of a stream, transport errors dropped. */
  function EventsOf(items: seq<StreamItem>): seq<StreamItem> {
    if items == [] then []
    else if items[0].HttpError? then EventsOf(items[1..])
    else [items[0]] + EventsOf(items[1..])
  }

  /** The number of transport errors in a stream. */
  function HttpErrors(items: seq<StreamItem>): nat {
    if items == [] then 0 else (if items[0].HttpError? then 1 else 0) + HttpErrors(items[1..])
  }
}

=== FILE: kube_index.dfy ===
/** The pod index of the standalone mmkubernetes watcher (mmkubernetes/main.py
    and its earlier single-file copy mmkubernetes.py, whose KubeWatcher is the
    same code). A plain dict maps each pod or namespace key, and each
    `container_id` of a pod's container statuses, to the pod's record; the
    container-id entries are what the filters look up. */
module PodIndex {
  import opened Json
  import opened Store
  import opened KubeApi

  /** `for x in v`, as far as the index loops go: a list yields its items,
      a str its one-character strings, an empty dict nothing; a non-empty
      dict yields string keys, which the loop body cannot index, so it fails
      with TypeError before anything is stored; None, booleans and numbers
      are not iterable. */
  function Iterate(v: Value): Result<seq<Value>> {
    match v
    case Arr(xs) => Ok(xs)
    case Str(s) => Ok(seq(|s|, i requires 0 <= i < |s| => Str([s[i]])))
    case Obj(m) => if m == map[] then Ok([]) else Err(TypeError)
    case _ => Err(TypeError)
  }

  /** The container statuses of a stored record:
      `v['status']['container_statuses']` when
      `'container_statuses' in v['status']`, else none. */
  function Statuses(v: Value): Result<seq<Value>> {
    var status :- Index(v, "status");
    var listed :- Contains(status, "container_statuses");
    if !listed then Ok([])
    else
      var cs :- Index(status, "container_statuses");
      Iterate(cs)
  }

  /** `container['container_id']` used as a dict key: lists and dicts are
      unhashable. */
  function SecondaryKey(item: Value): Result<Value> {
    var id :- Index(item, "container_id");
    if id.Arr? || id.Obj? then Err(TypeError) else Ok(id)
  }

  /** The container ids that a list of statuses names. */
  function IdSet(items: seq<Value>): set<Value>
    decreases |items|
  {
    if items == [] then {}
    else (if SecondaryKey(items[0]).Ok? then {SecondaryKey(items[0]).value} else {}) + IdSet(items[1..])
  }

  /** Every status has a usable `container_id`. */
  predicate AllKeyed(items: seq<Value>) {
    forall i :: 0 <= i < |items| ==> SecondaryKey(items[i]).Ok?
  }

  /** Every status has a usable `container_id` and no two share one. */
  predicate KeysDistinct(items: seq<Value>) {
    && AllKeyed(items)
    && (forall i, j :: 0 <= i < j < |items| ==> SecondaryKey(items[i]) != SecondaryKey(items[j]))
  }

  /** `a` and `b` agree at `key`: both lack it, or both hold the same value. */
  predicate SameAt(a: map<Value, Value>, b: map<Value, Value>, key: Value) {
    (key in a <==> key in b) && (key in a ==> a[key] == b[key])
  }

  /** The dict after an update, and the exception that interrupted it. */
  datatype Updated = Updated(entries: map<Value, Value>, error: Option<PyError>)

  /** The loop of `add`: store `v` under each container id in turn. */
  function IndexAll(entries: map<Value, Value>, items: seq<Value>, v: Value): Updated
    decreases |items|
  {
    if items == [] then Updated(entries, None)
    else match SecondaryKey(items[0])
      case Err(e) => Updated(entries, Some(e))
      case Ok(id) => IndexAll(entries[id := v], items[1..], v)
  }

  /** `add(k, event)` with the record `v` already built. */
  function Added(entries: map<Value, Value>, k: Value, v: Value): Updated {
    var stored := entries[k := v];
    match Statuses(v)
    case Err(e) => Updated(stored, Some(e))
    case Ok(items) => IndexAll(stored, items, v)
  }

  /** The loop of `remove`: `del` each container id in turn. */
  function UnindexAll(entries: map<Value, Value>, items: seq<Value>): Updated
    decreases |items|
  {
    if items == [] then Updated(entries, None)
    else match SecondaryKey(items[0])
      case Err(e) => Updated(entries, Some(e))
      case Ok(id) =>
        if id in entries then UnindexAll(entries - {id}, items[1..]) else Updated(entries, Some(KeyError))
  }

  /** The dict after `remove(k)`, and what it returned or raised. */
  datatype Removal = Removal(entries: map<Value, Value>, result: Result<Value>)

  function Removed(entries: map<Value, Value>, k: Value): Removal {
    if k !in entries then Removal(entries, Err(KeyError))
    else
      var v := entries[k];
      var rest := entries - {k};
      match Statuses(v)
      case Err(e) => Removal(rest, Err(e))
      case Ok(items) =>
        var u := UnindexAll(rest, items);
        Removal(u.entries, if u.error.Some? then Err(u.error.value) else Ok(v))
  }

  /** The two watch loops: `watch_namespaces` streams pods and keys them
      `'{namespace}_{name}'`; `watch_pods` streams namespaces and keys them
      by the bare name (None when unset). */
  datatype Source = PodStream | NamespaceStream

  function KeyOf(source: Source, m: ObjectMeta): Value {
    match source
    case PodStream => Str(Fmt(m.namespace) + "_" + Fmt(m.name))
    case NamespaceStream => OptStr(m.name)
  }

  /** One event of either watch loop. */
  function Apply(entries: map<Value, Value>, source: Source, e: WatchEvent): Updated {
    var key := KeyOf(source, e.obj.metadata);
    if e.eventType == "DELETED" then
      var r := Removed(entries, key);
      Updated(r.entries, if r.result.Err? then Some(r.result.error) else None)
    else if IsUpsert(e.eventType) then Added(entries, key, RecordOf(e.obj))
    else Updated(entries, None)
  }

  datatype Watched = Watched(entries: map<Value, Value>, sleeps: nat, error: Option<PyError>)

  function WatchSpec(entries: map<Value, Value>, source: Source, items: seq<StreamItem>): Watched
    decreases |items|
  {
    if items == [] then Watched(entries, 0, None)
    else match items[0]
      case HttpError =>
        var w := WatchSpec(entries, source, items[1..]);
        Watched(w.entries, w.sleeps + 1, w.error)
      case Event(e) =>
        var u := Apply(entries, source, e);
        if u.error.Some? then Watched(u.entries, 0, u.error)
        else WatchSpec(u.entries, source, items[1..])
  }

  class KubeWatcher {
    const cache: Cache<Value, Value>

    /** `self.cache = {}`. */
    constructor ()
      ensures fresh(cache) && cache.entries == map[]
    {
      cache := new Cache();
    }

    /** `add(k, event)`: store the record under `k`, then under each
        container id; an exception leaves what was stored so far. */
    method Add(k: Value, obj: KubeObject) returns (error: Option<PyError>)
      modifies cache
      ensures Updated(cache.entries, error) == Added(old(cache.entries), k, RecordOf(obj))
    {
      var v := RecordOf(obj);
      cache.Put(k, v);
      var statuses := Statuses(v);
      if statuses.Err? {
        return Some(statuses.error);
      }
      var items := statuses.value;
      var n := 0;
      while n < |items|
        invariant n <= |items|
        invariant IndexAll(cache.entries, items[n..], v) == IndexAll(old(cache.entries)[k := v], items, v)
      {
        assert items[n..][1..] == items[n + 1..];
        var id := SecondaryKey(items[n]);
        if id.Err? {
          return Some(id.error);
        }
        cache.Put(id.value, v);
        n := n + 1;
      }
      assert items[n..] == [];
      return None;
    }

    /** `remove(k)`: return the record under `k` after deleting `k` and each
        container id it lists; every `del` of an absent key raises KeyError. */
    method Remove(k: Value) returns (r: Result<Value>)
      modifies cache
      ensures Removal(cache.entries, r) == Removed(old(cache.entries), k)
    {
      if k !in cache.entries {
        return Err(KeyError);
      }
      var v := cache.entries[k];
      var _ := cache.Del(k);
      var statuses := Statuses(v);
      if statuses.Err? {
        return Err(statuses.error);
      }
      var items := statuses.value;
      var n := 0;
      while n < |items|
        invariant n <= |items|
        invariant UnindexAll(cache.entries, items[n..]) == UnindexAll(old(cache.entries) - {k}, items)
      {
        assert items[n..][1..] == items[n + 1..];
        var id := SecondaryKey(items[n]);
        if id.Err? {
          return Err(id.error);
        }
        var d := cache.Del(id.value);
        if d.Err? {
          return Err(d.error);
        }
        n := n + 1;
      }
      assert items[n..] == [];
      return Ok(v);
    }

    /** `watch_namespaces` (source PodStream) or `watch_pods` (source
        NamespaceStream): dispatch each event on its type; a transport error
        sleeps one second; any other exception ends the loop. */
    method Watch(source: Source, items: seq<StreamItem>) returns (sleeps: nat, error: Option<PyError>)
      modifies cache
      ensures Watched(cache.entries, sleeps, error) == WatchSpec(old(cache.entries), source, items)
    {
      sleeps, error := 0, None;
      var n := 0;
      while n < |items|
        invariant n <= |items| && error == None
        invariant var w := WatchSpec(cache.entries, source, items[n..]);
          WatchSpec(old(cache.entries), source, items) == Watched(w.entries, sleeps + w.sleeps, w.error)
      {
        assert items[n..][1..] == items[n + 1..];
        match items[n] {
          case HttpError =>
            sleeps := sleeps + 1;
          case Event(e) =>
            var key := KeyOf(source, e.obj.metadata);
            if e.eventType == "DELETED" {
              var r := Remove(key);
              if r.Err? {
                error := Some(r.error);
                return;
              }
            } else if IsUpsert(e.eventType) {
              error := Add(key, e.obj);
              if error.Some? {
                return;
              }
            }
        }
        n := n + 1;
      }
      assert items[n..] == [];
    }
  }

  /** `IdSet` holds exactly the ids the statuses name. */
  lemma {:induction false} IdSetMembers(items: seq<Value>, key: Value)
    ensures key in IdSet(items) <==> exists i :: 0 <= i < |items| && SecondaryKey(items[i]) == Ok(key)
    decreases |items|
  {
    if items != [] {
      IdSetMembers(items[1..], key);
      if exists i :: 0 <= i < |items[1..]| && SecondaryKey(items[1..][i]) == Ok(key) {
        var i :| 0 <= i < |items[1..]| && SecondaryKey(items[1..][i]) == Ok(key);
        assert SecondaryKey(items[i + 1]) == Ok(key);
      }
      if exists i :: 0 <= i < |items| && SecondaryKey(items[i]) == Ok(key) {
        var i :| 0 <= i < |items| && SecondaryKey(items[i]) == Ok(key);
        if i > 0 {
          assert SecondaryKey(items[1..][i - 1]) == Ok(key);
        }
      }
    }
  }

  /** The `add` loop only ever stores `v`: it removes nothing, every key it
      touches is a listed container id, and it completes exactly when every
      status has a usable id, in which case each of them holds `v`. */
  lemma {:induction false} IndexAllFrame(entries: map<Value, Value>, items: seq<Value>, v: Value)
    ensures var r := IndexAll(entries, items, v);
      && entries.Keys <= r.entries.Keys
      && (forall key :: key !in IdSet(items) ==> SameAt(r.entries, entries, key))
      && (forall key :: key in r.entries && !SameAt(r.entries, entries, key) ==> r.entries[key] == v)
      && (r.error.None? <==> AllKeyed(items))
      && (r.error.None? ==> forall key :: key in IdSet(items) ==> key in r.entries && r.entries[key] == v)
    decreases |items|
  {
    if items != [] {
      var rest := items[1..];
      assert AllKeyed(rest) ==> forall i :: 0 <= i < |items| ==> SecondaryKey(items[i]).Ok? || i == 0 by {
        forall i | 0 < i < |items| ensures items[i] == rest[i - 1] { }
      }
      match SecondaryKey(items[0])
      case Err(_) =>
      case Ok(id) =>
        IndexAllFrame(entries[id := v], rest, v);
        if !AllKeyed(rest) {
          var i :| 0 <= i < |rest| && SecondaryKey(rest[i]).Err?;
          assert SecondaryKey(items[i + 1]).Err?;
        }
    }
  }

  /** `add(k, event)`: `k` always ends up holding the record, even when the
      container loop raises; no key is ever removed, so ids of an earlier
      version of the pod stay; only `k` and the listed container ids change;
      and when `add` completes each listed id holds the record. */
  lemma AddIndexes(entries: map<Value, Value>, k: Value, v: Value)
    ensures var r := Added(entries, k, v);
      && k in r.entries && r.entries[k] == v
      && entries.Keys <= r.entries.Keys
      && (Statuses(v).Err? ==> r == Updated(entries[k := v], Some(Statuses(v).error)))
      && (Statuses(v).Ok? ==>
            && (r.error.None? <==> AllKeyed(Statuses(v).value))
            && (forall key :: key != k && key !in IdSet(Statuses(v).value) ==> SameAt(r.entries, entries, key))
            && (r.error.None? ==> forall key :: key in IdSet(Statuses(v).value) ==> key in r.entries && r.entries[key] == v))
  {
    if Statuses(v).Ok? {
      var stored := entries[k := v];
      IndexAllFrame(stored, Statuses(v).value, v);
      var r := Added(entries, k, v);
      assert r == IndexAll(stored, Statuses(v).value, v);
      if k !in IdSet(Statuses(v).value) {
        assert SameAt(r.entries, stored, k);
      }
    }
  }

  /** The `remove` loop only deletes; it touches only listed ids; and it
      completes exactly when the listed ids are usable, pairwise distinct and
      all present, leaving the dict without them; when every listed id is
      usable, the only way it can fail is KeyError for a missing id. */
  lemma {:induction false} UnindexAllFrame(entries: map<Value, Value>, items: seq<Value>)
    ensures var r := UnindexAll(entries, items);
      && r.entries.Keys <= entries.Keys
      && (forall key :: key in r.entries ==> r.entries[key] == entries[key])
      && (forall key :: key !in IdSet(items) ==> SameAt(r.entries, entries, key))
      && (r.error.None? <==> KeysDistinct(items) && IdSet(items) <= entries.Keys)
      && (r.error.None? ==> r.entries == entries - IdSet(items))
      && (AllKeyed(items) && r.error.Some? ==> r.error == Some(KeyError))
    decreases |items|
  {
    if items != [] {
      var rest := items[1..];
      match SecondaryKey(items[0])
      case Err(_) =>
      case Ok(id) =>
        assert id in IdSet(items);
        if id in entries {
          var smaller := entries - {id};
          UnindexAllFrame(smaller, rest);
          var r := UnindexAll(entries, items);
          assert r == UnindexAll(smaller, rest);
          if AllKeyed(items) {
            forall i | 0 <= i < |rest| ensures SecondaryKey(rest[i]).Ok? {
              assert rest[i] == items[i + 1];
            }
          }
          if r.error.None? {
            assert r.entries == entries - IdSet(items);
            assert id !in IdSet(rest);
            forall i, j | 0 <= i < j < |items| ensures SecondaryKey(items[i]) != SecondaryKey(items[j]) {
              assert SecondaryKey(items[j]) == SecondaryKey(rest[j - 1]);
              if i == 0 {
                IdSetMembers(rest, id);
              } else {
                assert SecondaryKey(items[i]) == SecondaryKey(rest[i - 1]);
              }
            }
            forall i | 0 <= i < |items| ensures SecondaryKey(items[i]).Ok? {
              if i > 0 {
                assert SecondaryKey(items[i]) == SecondaryKey(rest[i - 1]);
              }
            }
          }
          if KeysDistinct(items) && IdSet(items) <= entries.Keys {
            forall i, j | 0 <= i < j < |rest| ensures SecondaryKey(rest[i]) != SecondaryKey(rest[j]) {
              assert SecondaryKey(rest[i]) == SecondaryKey(items[i + 1]);
              assert SecondaryKey(rest[j]) == SecondaryKey(items[j + 1]);
            }
            forall i | 0 <= i < |rest| ensures SecondaryKey(rest[i]).Ok? {
              assert SecondaryKey(rest[i]) == SecondaryKey(items[i + 1]);
            }
            IdSetMembers(rest, id);
          }
        }
    }
  }

  /** `remove(k)`: an absent `k` raises KeyError and changes nothing;
      otherwise `k` is deleted first, so it is gone whatever follows; the
      call returns exactly when the listed ids are usable, pairwise distinct
      and present (with usable ids, any failure is KeyError), and then it
      returns the record that was under `k` and
      the dict has lost `k` and those ids and nothing else. */
  lemma RemoveCases(entries: map<Value, Value>, k: Value)
    ensures var r := Removed(entries, k);
      && r.entries.Keys <= entries.Keys
      && (k !in entries ==> r == Removal(entries, Err(KeyError)))
      && (k in entries ==> k !in r.entries)
      && (k in entries && Statuses(entries[k]).Err? ==> r == Removal(entries - {k}, Err(Statuses(entries[k]).error)))
      && (k in entries && Statuses(entries[k]).Ok? ==>
            var items := Statuses(entries[k]).value;
            && (r.result.Ok? <==> KeysDistinct(items) && IdSet(items) <= (entries - {k}).Keys)
            && (r.result.Ok? ==> r.result == Ok(entries[k]) && r.entries == entries - {k} - IdSet(items))
            && (AllKeyed(items) && r.result.Err? ==> r.result == Err(KeyError)))
  {
    if k in entries && Statuses(entries[k]).Ok? {
      UnindexAllFrame(entries - {k}, Statuses(entries[k]).value);
    }
  }

  /** Adding a pod whose container ids are distinct and differ from its own
      key, then removing that key, succeeds, returns the added record, and
      leaves the dict as it was with the key and those ids taken out. */
  lemma AddThenRemove(entries: map<Value, Value>, k: Value, v: Value)
    requires Statuses(v).Ok? && KeysDistinct(Statuses(v).value) && k !in IdSet(Statuses(v).value)
    ensures var a := Added(entries, k, v);
      a.error == None && Removed(a.entries, k) == Removal(entries - {k} - IdSet(Statuses(v).value), Ok(v))
  {
    var items := Statuses(v).value;
    var a := Added(entries, k, v);
    AddIndexes(entries, k, v);
    RemoveCases(a.entries, k);
    var r := Removed(a.entries, k);
    assert r.result.Ok?;
    assert r.entries == entries - {k} - IdSet(items) by {
      forall key | key != k && key !in IdSet(items) ensures SameAt(a.entries, entries, key) { }
    }
  }

  /** Two containers that are still waiting have no `container_id` yet (it
      is None), so both statuses name the key None: `add` succeeds, but
      `remove` deletes None once and raises KeyError on the second `del`. */
  lemma SharedIdBreaksRemove()
    ensures var waiting := Obj(map["container_id" := Null]);
      var pod := KubeObject(Some("Pod"), ObjectMeta(Some("web"), Some("default"), map[]),
                            map["container_statuses" := Arr([waiting, waiting])]);
      var a := Added(map[], Str("default_web"), RecordOf(pod));
      a.error == None && Removed(a.entries, Str("default_web")).result == Err(KeyError)
  {
    var waiting := Obj(map["container_id" := Null]);
    var pod := KubeObject(Some("Pod"), ObjectMeta(Some("web"), Some("default"), map[]),
                          map["container_statuses" := Arr([waiting, waiting])]);
    var v := RecordOf(pod);
    assert Statuses(v) == Ok([waiting, waiting]);
    var stored := map[Str("default_web") := v];
    assert [waiting, waiting][1..] == [waiting];
    assert IndexAll(stored, [waiting, waiting], v) == IndexAll(stored[Null := v], [waiting], v);
    assert IndexAll(stored[Null := v], [waiting], v) == Updated(stored[Null := v], None);
    var a := Added(map[], Str("default_web"), v);
    assert a.entries == map[Str("default_web") := v, Null := v];
    var rest := a.entries - {Str("default_web")};
    assert UnindexAll(rest, [waiting, waiting]) == UnindexAll(rest - {Null}, [waiting]);
  }

  /** The evidently intended removal: `self.cache.pop(id, None)` in place of
      `del`, so an id that is already gone is skipped. */
  function UnindexLenient(entries: map<Value, Value>, items: seq<Value>): Updated
    decreases |items|
  {
    if items == [] then Updated(entries, None)
    else match SecondaryKey(items[0])
      case Err(e) => Updated(entries, Some(e))
      case Ok(id) => UnindexLenient(entries - {id}, items[1..])
  }

  function RemovedLenient(entries: map<Value, Value>, k: Value): Removal {
    if k !in entries then Removal(entries, Err(KeyError))
    else
      var v := entries[k];
      match Statuses(v)
      case Err(e) => Removal(entries - {k}, Err(e))
      case Ok(items) =>
        var u := UnindexLenient(entries - {k}, items);
        Removal(u.entries, if u.error.Some? then Err(u.error.value) else Ok(v))
  }

  /** The lenient loop completes exactly when every status has a usable id,
      and then removes exactly the listed ids, shared or not. */
  lemma {:induction false} UnindexLenientFrame(entries: map<Value, Value>, items: seq<Value>)
    ensures var r := UnindexLenient(entries, items);
      && (r.error.None? <==> AllKeyed(items))
      && (r.error.None? ==> r.entries == entries - IdSet(items))
    decreases |items|
  {
    if items != [] {
      var rest := items[1..];
      match SecondaryKey(items[0])
      case Err(_) =>
      case Ok(id) =>
        UnindexLenientFrame(entries - {id}, rest);
        assert AllKeyed(items) <==> AllKeyed(rest) by {
          forall i | 0 < i < |items| ensures items[i] == rest[i - 1] { }
        }
        if AllKeyed(rest) {
          assert entries - {id} - IdSet(rest) == entries - IdSet(items);
        }
    }
  }

  /** With the lenient removal, adding a pod and removing its key succeeds
      whenever `add` did, returns the added record, and leaves no trace of
      the key or of any of its container ids, shared ones included. */
  lemma AddThenRemoveLenient(entries: map<Value, Value>, k: Value, v: Value)
    requires Statuses(v).Ok? && AllKeyed(Statuses(v).value)
    ensures var a := Added(entries, k, v);
      a.error == None && RemovedLenient(a.entries, k) == Removal(entries - {k} - IdSet(Statuses(v).value), Ok(v))
  {
    var items := Statuses(v).value;
    var a := Added(entries, k, v);
    AddIndexes(entries, k, v);
    UnindexLenientFrame(a.entries - {k}, items);
    var r := RemovedLenient(a.entries, k);
    assert r.entries == entries - {k} - IdSet(items) by {
      forall key | key != k && key !in IdSet(items) ensures SameAt(a.entries, entries, key) { }
    }
  }

  /** Both watch loops dispatch on the event type alone: DELETED removes the
      event's key, ADDED and MODIFIED add it with the object's record, and
      any other type changes nothing. */
  lemma ApplyCases(entries: map<Value, Value>, source: Source, e: WatchEvent)
    ensures var key := KeyOf(source, e.obj.metadata);
      var u := Apply(entries, source, e);
      && (e.eventType == "DELETED" ==>
            u.entries == Removed(entries, key).entries && (u.error.None? <==> Removed(entries, key).result.Ok?))
      && (IsUpsert(e.eventType) ==> u == Added(entries, key, RecordOf(e.obj)))
      && (e.eventType != "DELETED" && !IsUpsert(e.eventType) ==> u == Updated(entries, None))
  {
  }
}

=== FILE: kube_watch.dfy ===
/** The Kubernetes watcher of mmcontainers/kubernetes.py: two watches, one
    over all pods and one over all namespaces, each turning every event into
    a put or a delete on the shared cache under a key built from a format. */
module KubeWatch {
  import opened Json
  import opened Store
  import opened KubeApi

  const DefaultPrefix: string := "kube"

  /** `'{prefix}/{metadata.namespace}/{metadata.name}'` for the pod watch,
      `'{prefix}/{metadata.name}'` for the namespace watch. */
  datatype KeyFormat = PodKeys | NamespaceKeys

  /** The cache key of an object. Every key lies under `prefix + '/'`, so
      watchers with different prefixes never write the same key. */
  function CacheKey(fmt: KeyFormat, prefix: string, m: ObjectMeta): (k: string)
    ensures prefix + "/" <= k
  {
    match fmt
    case PodKeys => prefix + "/" + Fmt(m.namespace) + "/" + Fmt(m.name)
    case NamespaceKeys => prefix + "/" + Fmt(m.name)
  }

  /** The effect of one event on the cache (the body of the `for` loop):
      DELETED deletes the key and raises KeyError if it is absent; ADDED and
      MODIFIED store the record; any other type changes nothing. */
  function Apply(entries: map<string, Value>, prefix: string, fmt: KeyFormat, e: WatchEvent): Result<map<string, Value>> {
    var key := CacheKey(fmt, prefix, e.obj.metadata);
    if e.eventType == "DELETED" then
      if key in entries then Ok(entries - {key}) else Err(KeyError)
    else if IsUpsert(e.eventType) then Ok(entries[key := RecordOf(e.obj)])
    else Ok(entries)
  }

  /** The cache after a stream, the number of one-second sleeps, and the
      exception that ended the watch, if any. */
  datatype Watched = Watched(entries: map<string, Value>, sleeps: nat, error: Option<PyError>)

  function WatchSpec(entries: map<string, Value>, prefix: string, fmt: KeyFormat, items: seq<StreamItem>): Watched
    decreases |items|
  {
    if items == [] then Watched(entries, 0, None)
    else match items[0]
      case HttpError =>
        var w := WatchSpec(entries, prefix, fmt, items[1..]);
        Watched(w.entries, w.sleeps + 1, w.error)
      case Event(e) =>
        match Apply(entries, prefix, fmt, e)
        case Err(err) => Watched(entries, 0, Some(err))
        case Ok(next) => WatchSpec(next, prefix, fmt, items[1..])
  }

  class KubeWatcher {
    const prefix: string
    const cache: Cache<string, Value>

    constructor (cache: Cache<string, Value>, prefix: string := DefaultPrefix)
      ensures this.cache == cache && this.prefix == prefix
    {
      this.cache := cache;
      this.prefix := prefix;
    }

    /** `watch(endpoint, cache_key_fmt)`: apply each event in turn; a transport
        error sleeps one second and streams again; a KeyError from a delete
        is not a transport error and ends the watch. */
    method Watch(fmt: KeyFormat, items: seq<StreamItem>) returns (sleeps: nat, error: Option<PyError>)
      modifies cache
      ensures Watched(cache.entries, sleeps, error) == WatchSpec(old(cache.entries), prefix, fmt, items)
    {
      sleeps, error := 0, None;
      var n := 0;
      while n < |items|
        invariant n <= |items|
        invariant var w := WatchSpec(cache.entries, prefix, fmt, items[n..]);
          WatchSpec(old(cache.entries), prefix, fmt, items) == Watched(w.entries, sleeps + w.sleeps, w.error)
      {
        assert items[n..][1..] == items[n + 1..];
        match items[n] {
          case HttpError =>
            sleeps := sleeps + 1;
          case Event(e) =>
            var key := CacheKey(fmt, prefix, e.obj.metadata);
            var data := RecordOf(e.obj);
            if e.eventType == "DELETED" {
              var r := cache.Del(key);
              if r.Err? {
                error := Some(r.error);
                return;
              }
            } else if IsUpsert(e.eventType) {
              cache.Put(key, data);
            }
        }
        n := n + 1;
      }
      assert items[n..] == [];
    }
  }

  /** Only the event's own key changes: ADDED/MODIFIED store exactly the
      object's record there, DELETED removes exactly that key, and fails with
      KeyError (changing nothing) when the key is absent; any other type
      leaves the cache as it was. */
  lemma ApplyFrame(entries: map<string, Value>, prefix: string, fmt: KeyFormat, e: WatchEvent)
    ensures var key := CacheKey(fmt, prefix, e.obj.metadata);
      var r := Apply(entries, prefix, fmt, e);
      && (r.Err? <==> e.eventType == "DELETED" && key !in entries)
      && (r.Err? ==> r.error == KeyError)
      && (r.Ok? ==> r.value - {key} == entries - {key})
      && (r.Ok? && IsUpsert(e.eventType) ==> key in r.value && r.value[key] == RecordOf(e.obj))
      && (r.Ok? && e.eventType == "DELETED" ==> key !in r.value)
      && (!IsUpsert(e.eventType) && e.eventType != "DELETED" ==> r == Ok(entries))
  {
  }

  /** Applying the same ADDED or MODIFIED event twice gives the cache that
      applying it once gives. */
  lemma UpsertIdempotent(entries: map<string, Value>, prefix: string, fmt: KeyFormat, e: WatchEvent)
    requires IsUpsert(e.eventType)
    ensures WatchSpec(entries, prefix, fmt, [Event(e), Event(e)]) == WatchSpec(entries, prefix, fmt, [Event(e)])
  {
    var key := CacheKey(fmt, prefix, e.obj.metadata);
    var once := Apply(entries, prefix, fmt, e).value;
    assert once[key := RecordOf(e.obj)] == once;
    assert [Event(e), Event(e)][1..] == [Event(e)];
  }

  /** Transport errors only cost a sleep each: the cache and the error that
      ends the watch are those of the stream with the errors taken out. */
  lemma {:induction false} HttpErrorsOnlySleep(entries: map<string, Value>, prefix: string, fmt: KeyFormat, items: seq<StreamItem>)
    ensures var w := WatchSpec(entries, prefix, fmt, items);
      var v := WatchSpec(entries, prefix, fmt, EventsOf(items));
      w.entries == v.entries && w.error == v.error && v.sleeps == 0
      && (w.error == None ==> w.sleeps == HttpErrors(items))
    decreases |items|
  {
    if items != [] {
      HttpErrorsOnlySleep(entries, prefix, fmt, items[1..]);
      if items[0].Event? {
        var r := Apply(entries, prefix, fmt, items[0].event);
        assert ([items[0]] + EventsOf(items[1..]))[1..] == EventsOf(items[1..]);
        if r.Ok? {
          HttpErrorsOnlySleep(r.value, prefix, fmt, items[1..]);
        }
      }
    }
  }

  /** A DELETED event for a key that is not cached raises KeyError, which the
      HTTPError handler does not catch: the watch ends there, whatever the
      stream still holds. */
  lemma DeleteOfAbsentKeyEndsWatch(entries: map<string, Value>, prefix: string, fmt: KeyFormat, e: WatchEvent, rest: seq<StreamItem>)
    requires e.eventType == "DELETED" && CacheKey(fmt, prefix, e.obj.metadata) !in entries
    ensures WatchSpec(entries, prefix, fmt, [Event(e)] + rest) == Watched(entries, 0, Some(KeyError))
  {
  }

  /** Pod keys hold two more slashes than the prefix, namespace keys one; so
      when names and namespaces contain no '/', a pod key is never a
      namespace key. */
  lemma PodAndNamespaceKeysDiffer(prefix: string, pod: ObjectMeta, ns: ObjectMeta)
    requires CountChar('/', Fmt(pod.namespace)) == 0 && CountChar('/', Fmt(pod.name)) == 0
    requires CountChar('/', Fmt(ns.name)) == 0
    ensures CacheKey(PodKeys, prefix, pod) != CacheKey(NamespaceKeys, prefix, ns)
  {
    var slash := CountChar('/', prefix);
    CountCharConcat('/', prefix, "/");
    CountCharConcat('/', prefix + "/", Fmt(pod.namespace));
    CountCharConcat('/', prefix + "/" + Fmt(pod.namespace), "/");
    CountCharConcat('/', prefix + "/" + Fmt(pod.namespace) + "/", Fmt(pod.name));
    CountCharConcat('/', prefix + "/", Fmt(ns.name));
    assert CountChar('/', "/") == 1;
    assert CountChar('/', CacheKey(PodKeys, prefix, pod)) == slash + 2;
    assert CountChar('/', CacheKey(NamespaceKeys, prefix, ns)) == slash + 1;
  }
}

=== FILE: monitor.dfy ===
/** The watch selection of mmcontainers/monitor.py: which watchers the
    monitor runs, given the drivers that could be imported and the
    `--watch-docker` (`-D`) and `--watch-kubernetes` (`-K`) flags, and the
    order in which it clears the cache and creates, starts and joins them. */
module Monitor {
  import opened Json
  import opened Store

  /** Which driver modules imported (`mdocker`/`mkubernetes` not None). */
  datatype Drivers = Drivers(docker: bool, kubernetes: bool)

  /** The flags given on the command line. */
  datatype CommandLine = CommandLine(watchDocker: bool, watchKubernetes: bool)

  /** `args.watch_docker` and `args.watch_kubernetes` after parsing. */
  datatype Flags = Flags(watchDocker: Option<bool>, watchKubernetes: Option<bool>)

  /** One flag as `create_argparser` sets it up: an available driver gets a
      `store_true` option defaulting to None; a missing driver gets no option
      (giving it is a usage error, None here) and the default False. */
  function ParseFlag(available: bool, given: bool): Option<Option<bool>> {
    if available then Some(if given then Some(true) else None)
    else if given then None
    else Some(Some(false))
  }

  function ParseArgs(drivers: Drivers, cli: CommandLine): Option<Flags> {
    var d := ParseFlag(drivers.docker, cli.watchDocker);
    var k := ParseFlag(drivers.kubernetes, cli.watchKubernetes);
    if d.None? || k.None? then None else Some(Flags(d.value, k.value))
  }

  /** `prepare()`: when both flags are None, watch what is available. */
  function Resolved(flags: Flags, drivers: Drivers): Flags {
    if flags.watchDocker.None? && flags.watchKubernetes.None? then
      Flags(Some(drivers.docker), Some(drivers.kubernetes))
    else flags
  }

  /** `if flag:`. */
  predicate Set(flag: Option<bool>) {
    flag == Some(true)
  }

  datatype Kind = KubernetesWatcher | DockerWatcher

  /** The watcher list `main` builds: Kubernetes first, then Docker. */
  function Selected(flags: Flags): seq<Kind> {
    (if Set(flags.watchKubernetes) then [KubernetesWatcher] else []) + (if Set(flags.watchDocker) then [DockerWatcher] else [])
  }

  /** What `main` does, in order. */
  datatype Action = ClearCache | Create(kind: Kind) | Start(started: Kind) | Join(joined: Kind)

  function Creates(ws: seq<Kind>): seq<Action> {
    seq(|ws|, i requires 0 <= i < |ws| => Create(ws[i]))
  }

  function Starts(ws: seq<Kind>): seq<Action> {
    seq(|ws|, i requires 0 <= i < |ws| => Start(ws[i]))
  }

  function Joins(ws: seq<Kind>): seq<Action> {
    seq(|ws|, i requires 0 <= i < |ws| => Join(ws[i]))
  }

  lemma ActionsAppend(ws: seq<Kind>, w: Kind)
    ensures Creates(ws + [w]) == Creates(ws) + [Create(w)]
    ensures Starts(ws + [w]) == Starts(ws) + [Start(w)]
    ensures Joins(ws + [w]) == Joins(ws) + [Join(w)]
  {
  }

  /** The actions of `main` and whether it raised `ApplicationError('nothing
      to watch')`. */
  datatype Run = Run(actions: seq<Action>, nothingToWatch: bool)

  function MainSpec(flags: Flags): Run {
    var ws := Selected(flags);
    if ws == [] then Run([ClearCache], true)
    else Run([ClearCache] + Creates(ws) + Starts(ws) + Joins(ws), false)
  }

  /** The two loops at the end of `main`: start every watcher, then join
      every watcher, both in list order. */
  method Launch(watchers: seq<Kind>) returns (actions: seq<Action>)
    ensures actions == Starts(watchers) + Joins(watchers)
  {
    actions := [];
    for i := 0 to |watchers|
      invariant actions == Starts(watchers[..i])
    {
      assert watchers[..i + 1] == watchers[..i] + [watchers[i]];
      ActionsAppend(watchers[..i], watchers[i]);
      actions := actions + [Start(watchers[i])];
    }
    assert watchers[..|watchers|] == watchers;
    for i := 0 to |watchers|
      invariant actions == Starts(watchers) + Joins(watchers[..i])
    {
      assert watchers[..i + 1] == watchers[..i] + [watchers[i]];
      ActionsAppend(watchers[..i], watchers[i]);
      actions := actions + [Join(watchers[i])];
    }
    assert watchers[..|watchers|] == watchers;
  }

  class MonitorApp {
    const drivers: Drivers
    const cache: Cache<string, Value>
    var watchDocker: Option<bool>
    var watchKubernetes: Option<bool>

    constructor (drivers: Drivers, cache: Cache<string, Value>, flags: Flags)
      ensures this.drivers == drivers && this.cache == cache
      ensures Flags(watchDocker, watchKubernetes) == flags
    {
      this.drivers := drivers;
      this.cache := cache;
      watchDocker := flags.watchDocker;
      watchKubernetes := flags.watchKubernetes;
    }

    method Prepare()
      modifies this
      ensures Flags(watchDocker, watchKubernetes) == Resolved(old(Flags(watchDocker, watchKubernetes)), drivers)
    {
      if watchDocker.None? && watchKubernetes.None? {
        watchDocker := Some(drivers.docker);
        watchKubernetes := Some(drivers.kubernetes);
      }
    }

    /** `main()`: the watchers themselves are not modelled, only the order in
        which they are created, started and joined. */
    method Execute() returns (run: Run)
      modifies cache
      ensures cache.entries == map[]
      ensures run == MainSpec(Flags(watchDocker, watchKubernetes))
    {
      cache.Clear();
      var actions := [ClearCache];
      var watchers: seq<Kind> := [];
      if Set(watchKubernetes) {
        ActionsAppend(watchers, KubernetesWatcher);
        actions := actions + [Create(KubernetesWatcher)];
        watchers := watchers + [KubernetesWatcher];
      }
      if Set(watchDocker) {
        ActionsAppend(watchers, DockerWatcher);
        actions := actions + [Create(DockerWatcher)];
        watchers := watchers + [DockerWatcher];
      }
      assert watchers == Selected(Flags(watchDocker, watchKubernetes));
      assert actions == [ClearCache] + Creates(watchers);
      if |watchers| == 0 {
        return Run(actions, true);
      }
      var launched := Launch(watchers);
      actions := actions + launched;
      return Run(actions, false);
    }
  }

  /** `prepare` only ever fills in two None flags: with both None, Docker is
      watched exactly when its driver imported, and Kubernetes likewise;
      with a flag given, nothing changes, so a flag left None is not
      watched. */
  lemma ResolvedCases(flags: Flags, drivers: Drivers)
    ensures var r := Resolved(flags, drivers);
      && (flags.watchDocker.None? && flags.watchKubernetes.None? ==>
            (Set(r.watchDocker) <==> drivers.docker) && (Set(r.watchKubernetes) <==> drivers.kubernetes))
      && (flags.watchDocker.Some? || flags.watchKubernetes.Some? ==> r == flags)
      && (flags.watchDocker.Some? && flags.watchKubernetes.None? ==> KubernetesWatcher !in Selected(r))
      && (flags.watchKubernetes.Some? && flags.watchDocker.None? ==> DockerWatcher !in Selected(r))
  {
  }

  /** `main` clears the cache before anything else; with no watcher
      selected it raises before creating or starting any; otherwise it
      creates the selected watchers, Kubernetes first, starts all of them in
      list order and only then joins them in the same order. */
  lemma MainOrder(flags: Flags)
    ensures var run := MainSpec(flags);
      var ws := Selected(flags);
      && run.actions[0] == ClearCache
      && (run.nothingToWatch <==> !Set(flags.watchDocker) && !Set(flags.watchKubernetes))
      && (run.nothingToWatch ==> run.actions == [ClearCache])
      && (!run.nothingToWatch ==>
            && |run.actions| == 1 + 3 * |ws|
            && (forall i :: 0 <= i < |ws| ==>
                  run.actions[1 + i] == Create(ws[i]) && run.actions[1 + |ws| + i] == Start(ws[i])
                  && run.actions[1 + 2 * |ws| + i] == Join(ws[i])))
      && (Set(flags.watchKubernetes) ==> ws[0] == KubernetesWatcher)
      && (DockerWatcher in ws <==> Set(flags.watchDocker))
  {
    var ws := Selected(flags);
    if ws != [] {
      var run := MainSpec(flags);
      forall i | 0 <= i < |ws|
        ensures run.actions[1 + i] == Create(ws[i]) && run.actions[1 + |ws| + i] == Start(ws[i])
          && run.actions[1 + 2 * |ws| + i] == Join(ws[i])
      {
        assert run.actions == [ClearCache] + Creates(ws) + Starts(ws) + Joins(ws);
      }
    }
  }

  /** A missing driver defaults its flag to False rather than None, so the
      "both None" defaulting can never fire on such a host: with Docker
      importable, Kubernetes not, and no flag given, nothing is watched. */
  lemma MissingDriverSelectsNothing()
    ensures var flags := ParseArgs(Drivers(true, false), CommandLine(false, false));
      && flags.Some?
      && Selected(Resolved(flags.value, Drivers(true, false))) == []
      && MainSpec(Resolved(flags.value, Drivers(true, false))).nothingToWatch
  {
  }

  /** The evidently intended parse: a missing driver leaves its flag None,
      so that the defaulting in `prepare` sees it. */
  function ParseArgsIntended(drivers: Drivers, cli: CommandLine): Option<Flags> {
    if (cli.watchDocker && !drivers.docker) || (cli.watchKubernetes && !drivers.kubernetes) then None
    else Some(Flags(if cli.watchDocker then Some(true) else None, if cli.watchKubernetes then Some(true) else None))
  }

  /** With the intended parse, a run without flags watches exactly the
      drivers that imported, on every host; and a given flag selects its
      watcher and only it. */
  lemma NoFlagsWatchesAvailable(drivers: Drivers, cli: CommandLine)
    ensures var flags := ParseArgsIntended(drivers, cli);
      && (flags.Some? <==> (cli.watchDocker ==> drivers.docker) && (cli.watchKubernetes ==> drivers.kubernetes))
      && (flags.Some? && !cli.watchDocker && !cli.watchKubernetes ==>
            Selected(Resolved(flags.value, drivers)) ==
              (if drivers.kubernetes then [KubernetesWatcher] else []) + (if drivers.docker then [DockerWatcher] else []))
      && (flags.Some? && (cli.watchDocker || cli.watchKubernetes) ==>
            Selected(Resolved(flags.value, drivers)) ==
              (if cli.watchKubernetes then [KubernetesWatcher] else []) + (if cli.watchDocker then [DockerWatcher] else []))
  {
  }

  /** The parser accepts `--watch-X` only for a driver that imported: such a
      flag is True when given and None otherwise, while a missing driver's
      flag is False; `--watch-X` for a missing driver is a usage error. */
  lemma ParseArgsCases(drivers: Drivers, cli: CommandLine)
    ensures var flags := ParseArgs(drivers, cli);
      && (flags.None? <==> (cli.watchDocker && !drivers.docker) || (cli.watchKubernetes && !drivers.kubernetes))
      && (flags.Some? ==>
            && flags.value.watchDocker == (if !drivers.docker then Some(false) else if cli.watchDocker then Some(true) else None)
            && flags.value.watchKubernetes == (if !drivers.kubernetes then Some(false) else if cli.watchKubernetes then Some(true) else None))
  {
  }
}

=== FILE: pod_filter.dfy ===
/** The message handlers that attach pod metadata to an rsyslog message by
    the container id it carries: the Filter of mmkubernetes/main.py (and its
    copy in mmcontainers/main.py), whose metadata keys are configurable, and
    the RsyslogFilter of mmkubernetes.py, whose keys are fixed. All of them
    look up `'docker://' + id` and only read the cache. */
module PodFilter {
  import opened Json
  import opened Store

  /** `default_metadata_keys`. */
  const DefaultMetadataKeys: seq<string> := ["name", "namespace"]

  /** The field list of `RsyslogFilter.handle_message` and its output key. */
  const RsyslogKeys: seq<string> := ["name", "namespace", "labels", "annotations", "uid"]
  const RsyslogNamespace: string := "k8s"

  /** `set(ks)`. */
  function KeySet(ks: seq<string>): set<string> {
    set k | k in ks
  }

  /** The metadata-key set `__init__` builds: the given keys (or the
      default ones), then `labels` and `annotations` when asked for. */
  function MetadataKeys(given: Option<seq<string>>, includeLabels: bool, includeAnnotations: bool): set<string> {
    var base := match given case Some(ks) => ks case None => DefaultMetadataKeys;
    KeySet(base) + (if includeLabels then {"labels"} else {}) + (if includeAnnotations then {"annotations"} else {})
  }

  /** The lookup key a message asks for: None when the message has no `$!`
      or `$!` has no `CONTAINER_ID_FULL` (the `{}` answer); otherwise
      `'docker://{}'.format(id)`. A `$!` that does not support `in`, or
      supports it but cannot be indexed, raises. */
  function LookupKey(msg: map<string, Value>): Result<Option<string>> {
    if "$!" !in msg then Ok(None)
    else
      var present :- Contains(msg["$!"], "CONTAINER_ID_FULL");
      if !present then Ok(None)
      else
        var id :- Index(msg["$!"], "CONTAINER_ID_FULL");
        Ok(Some("docker://" + Show(id)))
  }

  /** `{'pod_' + k: metadata[k] for k in keys}`. */
  function Prefixed(keys: set<string>, metadata: map<string, Value>): map<string, Value>
    requires keys <= metadata.Keys
  {
    var names := set k | k in keys :: "pod_" + k;
    assert forall f :: f in names ==> f[4..] in metadata by {
      forall f | f in names ensures f[4..] in metadata {
        var k :| k in keys && f == "pod_" + k;
        assert f[4..] == k;
      }
    }
    map f | f in names :: metadata[f[4..]]
  }

  /** The outcome of the metadata loop on a cached record: nothing to copy
      gives `{}` without touching the record; otherwise `data['metadata']`
      must be a dict holding every key (a missing one raises KeyError). */
  function PodFields(keys: set<string>, data: Value): Result<map<string, Value>> {
    if keys == {} then Ok(map[])
    else
      var md :- Index(data, "metadata");
      if !md.Obj? then Err(TypeError)
      else if keys <= md.fields.Keys then Ok(Prefixed(keys, md.fields))
      else Err(KeyError)
  }

  /** The watcher's dict of mmkubernetes is keyed by the string itself. */
  function StrKey(k: string): Value {
    Str(k)
  }

  /** The whole of `handle_message` on a cache whose keys are built from
      strings by `keyOf`. */
  function Handled<K>(keys: set<string>, namespace: string, entries: map<K, Value>, keyOf: string -> K, msg: map<string, Value>): Result<Value> {
    var key :- LookupKey(msg);
    match key
    case None => Ok(EmptyObj)
    case Some(k) =>
      var data := Lookup(entries, keyOf(k));
      if data == Null then Ok(EmptyObj)
      else
        var fields :- PodFields(keys, data);
        Ok(Answer(namespace, fields))
  }

  /** The update `{'$!': {namespace: fields}}`. */
  function Answer(namespace: string, fields: map<string, Value>): Value {
    Obj(map["$!" := Obj(map[namespace := Obj(fields)])])
  }

  /** The loop `for k in keys: metadata['pod_' + k] = data['metadata'][k]`,
      in whatever order the set yields its keys. */
  method CopyFields(keys: set<string>, data: Value) returns (r: Result<map<string, Value>>)
    ensures r == PodFields(keys, data)
  {
    var metadata: map<string, Value> := map[];
    var todo := keys;
    ghost var done: set<string> := {};
    while todo != {}
      invariant done + todo == keys && done !! todo
      invariant Copied(done, data, metadata)
      decreases |todo|
    {
      var k :| k in todo;
      var md := Index(data, "metadata");
      if md.Err? {
        return Err(md.error);
      }
      if !md.value.Obj? {
        return Err(TypeError);
      }
      if k !in md.value.fields {
        return Err(KeyError);
      }
      PrefixedAdd(done, k, md.value.fields);
      metadata := metadata["pod_" + k := md.value.fields[k]];
      todo := todo - {k};
      done := done + {k};
    }
    return Ok(metadata);
  }

  /** What the loop of `CopyFields` has built after copying the keys `done`. */
  ghost predicate Copied(done: set<string>, data: Value, metadata: map<string, Value>) {
    if done == {} then metadata == map[]
    else
      var md := Index(data, "metadata");
      md.Ok? && md.value.Obj? && done <= md.value.fields.Keys && metadata == Prefixed(done, md.value.fields)
  }

  lemma PrefixedAdd(done: set<string>, k: string, metadata: map<string, Value>)
    requires done <= metadata.Keys && k in metadata
    ensures Prefixed(done + {k}, metadata) == Prefixed(done, metadata)["pod_" + k := metadata[k]]
  {
    var a := Prefixed(done + {k}, metadata);
    var b := Prefixed(done, metadata)["pod_" + k := metadata[k]];
    forall key | key in a ensures key in b && a[key] == b[key] {
      var j :| j in done + {k} && key == "pod_" + j;
      if j != k && "pod_" + j == "pod_" + k {
        PrefixInjective("pod_", j, k);
      }
    }
    assert a.Keys == b.Keys;
  }

  /** Each metadata key gives exactly one `pod_` entry holding its value:
      the output has no other entries, and distinct keys never collide. */
  lemma PrefixedExact(keys: set<string>, metadata: map<string, Value>)
    requires keys <= metadata.Keys
    ensures var r := Prefixed(keys, metadata);
      && (forall k :: k in keys ==> "pod_" + k in r && r["pod_" + k] == metadata[k])
      && (forall f :: f in r ==> "pod_" <= f && f[4..] in keys)
      && |r| == |keys|
  {
    var r := Prefixed(keys, metadata);
    forall f | f in r ensures "pod_" <= f && f[4..] in keys {
      var k :| k in keys && f == "pod_" + k;
      assert f[4..] == k;
    }
    forall k | k in keys ensures "pod_" + k in r && r["pod_" + k] == metadata[k] {
      forall j | j in keys && "pod_" + j == "pod_" + k ensures j == k {
        PrefixInjective("pod_", j, k);
      }
    }
    assert r.Keys == set k | k in keys :: "pod_" + k;
    CardinalityOfImage(keys, r);
  }

  lemma CardinalityOfImage(keys: set<string>, r: map<string, Value>)
    requires r.Keys == set k | k in keys :: "pod_" + k
    ensures |r| == |keys|
    decreases |keys|
  {
    if keys != {} {
      var k :| k in keys;
      var rest := keys - {k};
      var smaller := r - {"pod_" + k};
      assert smaller.Keys == set j | j in rest :: "pod_" + j by {
        forall f | f in smaller.Keys ensures f in set j | j in rest :: "pod_" + j {
          var j :| j in keys && f == "pod_" + j;
        }
        forall j | j in rest ensures "pod_" + j in smaller.Keys {
          if "pod_" + j == "pod_" + k {
            PrefixInjective("pod_", j, k);
          }
        }
      }
      CardinalityOfImage(rest, smaller);
    }
  }

  /** `handle_message` on a cache whose keys are built from strings by
      `keyOf`: the body both filter classes share. */
  method Respond<K>(keys: set<string>, namespace: string, entries: map<K, Value>, keyOf: string -> K, msg: map<string, Value>)
    returns (r: Result<Value>)
    ensures r == Handled(keys, namespace, entries, keyOf, msg)
  {
    var key := LookupKey(msg);
    if key.Err? {
      return Err(key.error);
    }
    if key.value.None? {
      return Ok(EmptyObj);
    }
    var data := Lookup(entries, keyOf(key.value.value));
    if data == Null {
      return Ok(EmptyObj);
    }
    var fields := CopyFields(keys, data);
    if fields.Err? {
      return Err(fields.error);
    }
    return Ok(Answer(namespace, fields.value));
  }

  /** The Filter of mmkubernetes/main.py, reading the watcher's dict. */
  class Filter {
    const cache: Cache<Value, Value>
    const namespace: string
    var metadataKeys: set<string>

    constructor (cache: Cache<Value, Value>, namespace: string, includeAnnotations: bool, includeLabels: bool,
                 metadataKeys: Option<seq<string>>)
      ensures this.cache == cache && this.namespace == namespace
      ensures this.metadataKeys == MetadataKeys(metadataKeys, includeLabels, includeAnnotations)
    {
      this.cache := cache;
      this.namespace := namespace;
      var keys: set<string>;
      match metadataKeys {
        case Some(ks) => keys := KeySet(ks);
        case None => keys := KeySet(DefaultMetadataKeys);
      }
      if includeLabels {
        keys := keys + {"labels"};
      }
      if includeAnnotations {
        keys := keys + {"annotations"};
      }
      this.metadataKeys := keys;
    }

    method HandleMessage(msg: map<string, Value>) returns (r: Result<Value>)
      ensures r == Handled(metadataKeys, namespace, cache.entries, StrKey, msg)
    {
      r := Respond(metadataKeys, namespace, cache.entries, StrKey, msg);
    }
  }

  /** The RsyslogFilter of mmkubernetes.py: five fixed fields under `k8s`. */
  class RsyslogFilter {
    const cache: Cache<Value, Value>

    constructor (cache: Cache<Value, Value>)
      ensures this.cache == cache
    {
      this.cache := cache;
    }

    method HandleMessage(msg: map<string, Value>) returns (r: Result<Value>)
      ensures r == Handled(KeySet(RsyslogKeys), RsyslogNamespace, cache.entries, StrKey, msg)
    {
      r := Respond(KeySet(RsyslogKeys), RsyslogNamespace, cache.entries, StrKey, msg);
    }
  }

  /** The metadata-key set holds the given keys (the default `name` and
      `namespace` when none are given), plus `labels` and `annotations`
      exactly when their flags ask for them, and nothing else. */
  lemma MetadataKeysCases(given: Option<seq<string>>, includeLabels: bool, includeAnnotations: bool)
    ensures var r := MetadataKeys(given, includeLabels, includeAnnotations);
      var base := match given case Some(ks) => ks case None => DefaultMetadataKeys;
      && (given.None? && !includeLabels && !includeAnnotations ==> r == {"name", "namespace"})
      && (forall k :: k in base ==> k in r)
      && (forall k :: k in r ==> k in base || (k == "labels" && includeLabels) || (k == "annotations" && includeAnnotations))
      && (includeLabels ==> "labels" in r)
      && (includeAnnotations ==> "annotations" in r)
  {
  }

  /** The `{}` answers: no `$!`, a `$!` dict without `CONTAINER_ID_FULL`,
      or a key that is not cached (or caches None). */
  lemma HandledMisses<K>(keys: set<string>, namespace: string, entries: map<K, Value>, keyOf: string -> K, msg: map<string, Value>)
    ensures var r := Handled(keys, namespace, entries, keyOf, msg);
      && ("$!" !in msg ==> r == Ok(EmptyObj))
      && ("$!" in msg && msg["$!"].Obj? && "CONTAINER_ID_FULL" !in msg["$!"].fields ==> r == Ok(EmptyObj))
      && (LookupKey(msg).Ok? && LookupKey(msg).value.Some? && Lookup(entries, keyOf(LookupKey(msg).value.value)) == Null ==>
            r == Ok(EmptyObj))
  {
  }

  /** On a cache hit the answer is `{'$!': {namespace: fields}}` with
      exactly one `'pod_' + k` field per metadata key, holding the record's
      `metadata[k]`; it fails exactly when there are keys to copy and the
      record's `metadata` is not a dict holding all of them. */
  lemma HandledHit<K>(keys: set<string>, namespace: string, entries: map<K, Value>, keyOf: string -> K, msg: map<string, Value>, k: string)
    requires LookupKey(msg) == Ok(Some(k)) && Lookup(entries, keyOf(k)) != Null
    ensures var data := Lookup(entries, keyOf(k));
      var md := Index(data, "metadata");
      var r := Handled(keys, namespace, entries, keyOf, msg);
      && (r.Ok? <==> keys == {} || (md.Ok? && md.value.Obj? && keys <= md.value.fields.Keys))
      && (r.Ok? ==>
            && r.value.Obj? && r.value.fields.Keys == {"$!"}
            && r.value.fields["$!"].Obj? && r.value.fields["$!"].fields.Keys == {namespace}
            && var out := r.value.fields["$!"].fields[namespace];
            && out.Obj? && |out.fields| == |keys|
            && (forall f :: f in out.fields ==> "pod_" <= f && f[4..] in keys)
            && (forall j :: j in keys ==> "pod_" + j in out.fields && out.fields["pod_" + j] == md.value.fields[j]))
  {
    var data := Lookup(entries, keyOf(k));
    var md := Index(data, "metadata");
    var p := PodFields(keys, data);
    assert Handled(keys, namespace, entries, keyOf, msg) == if p.Ok? then Ok(Answer(namespace, p.value)) else Err(p.error);
    if p.Ok? {
      AnswerShape(namespace, p.value);
      if keys != {} {
        PrefixedExact(keys, md.value.fields);
      }
    }
  }

  lemma AnswerShape(namespace: string, fields: map<string, Value>)
    ensures var a := Answer(namespace, fields);
      && a.Obj? && a.fields.Keys == {"$!"}
      && a.fields["$!"].Obj? && a.fields["$!"].fields.Keys == {namespace}
      && a.fields["$!"].fields[namespace] == Obj(fields)
  {
  }

  /** The fixed RsyslogFilter answers a hit with exactly five fields,
      `pod_name`, `pod_namespace`, `pod_labels`, `pod_annotations` and
      `pod_uid`, under `k8s`. */
  lemma RsyslogHit(entries: map<Value, Value>, msg: map<string, Value>, k: string)
    requires LookupKey(msg) == Ok(Some(k)) && Lookup(entries, Str(k)) != Null
    ensures var r := Handled(KeySet(RsyslogKeys), RsyslogNamespace, entries, StrKey, msg);
      r.Ok? ==>
        && r.value.Obj? && r.value.fields.Keys == {"$!"}
        && r.value.fields["$!"].Obj? && r.value.fields["$!"].fields.Keys == {"k8s"}
        && var out := r.value.fields["$!"].fields["k8s"];
        && out.Obj? && |out.fields| == 5
        && "pod_name" in out.fields && "pod_namespace" in out.fields && "pod_labels" in out.fields
        && "pod_annotations" in out.fields && "pod_uid" in out.fields
  {
    var keys := KeySet(RsyslogKeys);
    RsyslogKeySet();
    PodFieldNames();
    HandledHit(keys, RsyslogNamespace, entries, StrKey, msg, k);
    var r := Handled(keys, RsyslogNamespace, entries, StrKey, msg);
    if r.Ok? {
      var out := r.value.fields["$!"].fields["k8s"];
      assert "pod_" + "name" in out.fields;
      assert "pod_" + "namespace" in out.fields;
      assert "pod_" + "labels" in out.fields;
      assert "pod_" + "annotations" in out.fields;
      assert "pod_" + "uid" in out.fields;
    }
  }

  lemma RsyslogKeySet()
    ensures var keys := KeySet(RsyslogKeys);
      && "name" in keys && "namespace" in keys && "labels" in keys && "annotations" in keys && "uid" in keys
      && |keys| == 5
  {
    assert KeySet(RsyslogKeys) == {"name", "namespace", "labels", "annotations", "uid"};
  }

  lemma PodFieldNames()
    ensures "pod_" + "name" == "pod_name" && "pod_" + "namespace" == "pod_namespace"
    ensures "pod_" + "labels" == "pod_labels" && "pod_" + "annotations" == "pod_annotations"
    ensures "pod_" + "uid" == "pod_uid"
  {
  }
}

=== FILE: retry.dfy ===
/** The retry loop of `retry_on` (mmcontainers/common.py): call a function,
    and while it raises one of the retried exceptions, sleep for an interval
    that starts at 1, doubles up to `maxinterval`, falls back to 1 after an
    attempt that ran longer than `reset`, and give up after `maxretries`.

    The wrapped function is replaced by the sequence of what its successive
    calls did; the clock by the duration of each failed call; `time.sleep` by
    the list of intervals the loop sleeps. */
module Retry {
  import opened Json

  /** One call of the wrapped function: it returned, or it raised after running
      `elapsed` seconds; `caught` says whether the exception is one of the
      `exceptions` the wrapper retries on. */
  datatype Attempt = Returned | Raised(caught: bool, elapsed: int)

  /** The decorator's arguments; `maxretries` of None or 0 means no limit. */
  datatype Config = Config(maxretries: Option<int>, reset: int, maxinterval: int)

  const Defaults: Config := Config(None, 10, 30)

  /** How the wrapper ended. */
  datatype Outcome =
    | Done         // the function returned; the wrapper returns None
    | Reraised     // the tries exceeded maxretries: the caught exception is re-raised
    | Propagated   // an exception outside `exceptions` escaped at once
    | SleepFailed  // the interval was negative: time.sleep raises ValueError
    | Pending      // the attempts given ran out while the loop was still retrying

  /** The intervals slept, the number of calls made, and how it ended. */
  datatype Trace = Trace(sleeps: seq<int>, calls: nat, outcome: Outcome)

  function Min(a: int, b: int): int { if a <= b then a else b }

  function Max(a: int, b: int): int { if a <= b then b else a }

  function Pow2(n: nat): (r: nat)
    ensures r >= 1
  {
    if n == 0 then 1 else 2 * Pow2(n - 1)
  }

  /** `maxretries and tries > maxretries` */
  predicate GivesUp(c: Config, tries: int) {
    c.maxretries.Some? && c.maxretries.value != 0 && tries > c.maxretries.value
  }

  /** The loop from the state (`interval`, `tries`) over the remaining attempts. */
  function Run(c: Config, attempts: seq<Attempt>, interval: int, tries: nat): Trace
    decreases |attempts|
  {
    if attempts == [] then Trace([], 0, Pending)
    else match attempts[0]
      case Returned => Trace([], 1, Done)
      case Raised(caught, elapsed) =>
        if !caught then Trace([], 1, Propagated)
        else if GivesUp(c, tries + 1) then Trace([], 1, Reraised)
        else
          var i := if elapsed > c.reset then 1 else interval;
          if i < 0 then Trace([], 1, SleepFailed)
          else
            var rest := Run(c, attempts[1..], Min(i * 2, c.maxinterval), tries + 1);
            Trace([i] + rest.sleeps, 1 + rest.calls, rest.outcome)
  }

  /** The wrapper `inner`: the whole run starts from interval 1 and no tries. */
  method Inner(c: Config, attempts: seq<Attempt>) returns (sleeps: seq<int>, calls: nat, outcome: Outcome)
    ensures Trace(sleeps, calls, outcome) == Run(c, attempts, 1, 0)
  {
    var interval := 1;
    var tries: nat := 0;
    sleeps, calls, outcome := [], 0, Pending;
    while calls < |attempts|
      invariant calls <= |attempts| && tries == calls
      invariant var t := Run(c, attempts[calls..], interval, tries);
        Run(c, attempts, 1, 0) == Trace(sleeps + t.sleeps, calls + t.calls, t.outcome)
    {
      var a := attempts[calls];
      assert attempts[calls..][1..] == attempts[calls + 1..];
      calls := calls + 1;
      if a.Returned? {
        outcome := Done;
        return;
      }
      if !a.caught {
        outcome := Propagated;
        return;
      }
      tries := tries + 1;
      if GivesUp(c, tries) {
        outcome := Reraised;
        return;
      }
      if a.elapsed > c.reset {
        interval := 1;
      }
      if interval < 0 {
        outcome := SleepFailed;
        return;
      }
      sleeps := sleeps + [interval];
      interval := Min(interval * 2, c.maxinterval);
    }
    assert attempts[calls..] == [];
  }

  /** The first sleep of a run is 1, because the interval starts at 1 and
      a reset also sets it to 1. */
  lemma FirstSleepIsOne(c: Config, attempts: seq<Attempt>)
    ensures var t := Run(c, attempts, 1, 0);
      t.sleeps != [] ==> t.sleeps[0] == 1
  {
  }

  predicate Within(s: seq<int>, lo: int, hi: int) {
    forall j :: 0 <= j < |s| ==> lo <= s[j] <= hi
  }

  /** Every interval slept lies between 0 and max(1, maxinterval). */
  lemma {:induction false} SleepsBounded(c: Config, attempts: seq<Attempt>, interval: int, tries: nat)
    requires interval <= Max(1, c.maxinterval)
    ensures Within(Run(c, attempts, interval, tries).sleeps, 0, Max(1, c.maxinterval))
    decreases |attempts|
  {
    if attempts != [] && attempts[0].Raised? && attempts[0].caught && !GivesUp(c, tries + 1) {
      var i := if attempts[0].elapsed > c.reset then 1 else interval;
      if i >= 0 {
        SleepsBounded(c, attempts[1..], Min(i * 2, c.maxinterval), tries + 1);
        var rest := Run(c, attempts[1..], Min(i * 2, c.maxinterval), tries + 1).sleeps;
        var s := Run(c, attempts, interval, tries).sleeps;
        assert s == [i] + rest;
        forall j | 0 <= j < |s| ensures 0 <= s[j] <= Max(1, c.maxinterval) {
          if j > 0 {
            assert s[j] == rest[j - 1];
          }
        }
        assert Within(s, 0, Max(1, c.maxinterval));
      }
    }
  }

  /** No failed attempt ran longer than `reset`. */
  predicate NoReset(c: Config, attempts: seq<Attempt>) {
    forall j :: 0 <= j < |attempts| ==> attempts[j].Raised? ==> attempts[j].elapsed <= c.reset
  }

  /** The n-th interval of `s` is min(2^(k+n), m). */
  predicate DoublesFrom(s: seq<int>, k: nat, m: int) {
    forall n :: 0 <= n < |s| ==> s[n] == Min(Pow2(k + n), m)
  }

  /** Without resets and with maxinterval >= 1, the interval after k doublings
      is min(2^k, maxinterval), so the n-th sleep of a run is min(2^(n-1), maxinterval). */
  lemma {:induction false} Doubling(c: Config, attempts: seq<Attempt>, k: nat, tries: nat)
    requires c.maxinterval >= 1 && NoReset(c, attempts)
    ensures DoublesFrom(Run(c, attempts, Min(Pow2(k), c.maxinterval), tries).sleeps, k, c.maxinterval)
    decreases |attempts|
  {
    var m := c.maxinterval;
    var interval := Min(Pow2(k), m);
    if attempts != [] && attempts[0].Raised? && attempts[0].caught && !GivesUp(c, tries + 1) {
      assert attempts[0].elapsed <= c.reset;
      assert Min(interval * 2, m) == Min(Pow2(k + 1), m);
      assert NoReset(c, attempts[1..]) by {
        forall j | 0 <= j < |attempts[1..]| ensures attempts[1..][j].Raised? ==> attempts[1..][j].elapsed <= c.reset {
          assert attempts[1..][j] == attempts[j + 1];
        }
      }
      Doubling(c, attempts[1..], k + 1, tries + 1);
      var rest := Run(c, attempts[1..], Min(Pow2(k + 1), m), tries + 1).sleeps;
      var s := Run(c, attempts, interval, tries).sleeps;
      assert s == [interval] + rest;
      forall n | 0 <= n < |s| ensures s[n] == Min(Pow2(k + n), m) {
        if n > 0 {
          assert s[n] == rest[n - 1];
          assert rest[n - 1] == Min(Pow2(k + 1 + (n - 1)), m);
          assert k + 1 + (n - 1) == k + n;
        } else {
          assert s[0] == interval;
        }
      }
      assert DoublesFrom(s, k, m);
    }
  }

  /** Sleep number j follows attempt number j, which was a retried failure;
      when that attempt ran longer than `reset` the sleep is 1. */
  lemma {:induction false} SleepsFollowFailures(c: Config, attempts: seq<Attempt>, interval: int, tries: nat)
    ensures var t := Run(c, attempts, interval, tries);
      && t.calls <= |attempts|
      && |t.sleeps| <= t.calls
      && forall j :: 0 <= j < |t.sleeps| ==>
           attempts[j].Raised? && attempts[j].caught && (attempts[j].elapsed > c.reset ==> t.sleeps[j] == 1)
    decreases |attempts|
  {
    if attempts != [] && attempts[0].Raised? && attempts[0].caught && !GivesUp(c, tries + 1) {
      var i := if attempts[0].elapsed > c.reset then 1 else interval;
      if i >= 0 {
        var next := Min(i * 2, c.maxinterval);
        SleepsFollowFailures(c, attempts[1..], next, tries + 1);
        var rest := Run(c, attempts[1..], next, tries + 1);
        var t := Run(c, attempts, interval, tries);
        forall j | 0 <= j < |t.sleeps|
          ensures attempts[j].Raised? && attempts[j].caught && (attempts[j].elapsed > c.reset ==> t.sleeps[j] == 1)
        {
          if j > 0 {
            assert t.sleeps[j] == rest.sleeps[j - 1];
            assert attempts[1..][j - 1] == attempts[j];
          }
        }
      }
    }
  }

  /** How the run ended is decided by its last call: there is exactly one
      sleep between consecutive calls and none after the last, the loop stops
      only on a return, an exception outside `exceptions`, the retry cap or a
      negative interval, and it is still retrying only when every attempt
      given was a retried failure. */
  lemma {:induction false} LastCallDecides(c: Config, attempts: seq<Attempt>, interval: int, tries: nat)
    ensures var t := Run(c, attempts, interval, tries);
      && (t.outcome == Pending ==> t.calls == |attempts| == |t.sleeps|)
      && (t.outcome != Pending ==>
            && 1 <= t.calls <= |attempts|
            && |t.sleeps| == t.calls - 1
            && (t.outcome == Done <==> attempts[t.calls - 1] == Returned)
            && (t.outcome == Propagated <==> attempts[t.calls - 1].Raised? && !attempts[t.calls - 1].caught)
            && (t.outcome == Reraised ==> attempts[t.calls - 1].Raised? && GivesUp(c, tries + t.calls)))
    decreases |attempts|
  {
    if attempts != [] && attempts[0].Raised? && attempts[0].caught && !GivesUp(c, tries + 1) {
      var i := if attempts[0].elapsed > c.reset then 1 else interval;
      if i >= 0 {
        var next := Min(i * 2, c.maxinterval);
        LastCallDecides(c, attempts[1..], next, tries + 1);
        var rest := Run(c, attempts[1..], next, tries + 1);
        if rest.outcome != Pending {
          assert attempts[1..][rest.calls - 1] == attempts[rest.calls];
        }
      }
    }
  }

  /** With `maxretries = m > 0` the function is called at most m + 1 times in
      all; when its first m + 1 calls all raise a retried exception (and the
      intervals stay non-negative), the (m + 1)-th failure is re-raised. */
  lemma {:induction false} RetryCap(c: Config, attempts: seq<Attempt>, interval: int, tries: nat)
    requires c.maxretries.Some? && c.maxretries.value > 0 && tries <= c.maxretries.value
    ensures var t := Run(c, attempts, interval, tries);
      && t.calls <= c.maxretries.value + 1 - tries
      && (|attempts| > c.maxretries.value - tries && interval >= 0 && c.maxinterval >= 0
          && (forall j :: 0 <= j <= c.maxretries.value - tries ==> attempts[j].Raised? && attempts[j].caught)
          ==> t.outcome == Reraised && t.calls == c.maxretries.value + 1 - tries)
    decreases |attempts|
  {
    var m := c.maxretries.value;
    if attempts != [] && attempts[0].Raised? && attempts[0].caught && !GivesUp(c, tries + 1) {
      var i := if attempts[0].elapsed > c.reset then 1 else interval;
      if i >= 0 {
        var next := Min(i * 2, c.maxinterval);
        RetryCap(c, attempts[1..], next, tries + 1);
        if |attempts| > m - tries && interval >= 0 && c.maxinterval >= 0
           && (forall j :: 0 <= j <= m - tries ==> attempts[j].Raised? && attempts[j].caught)
        {
          forall j | 0 <= j <= m - (tries + 1) ensures attempts[1..][j].Raised? && attempts[1..][j].caught {
            assert attempts[1..][j] == attempts[j + 1];
          }
        }
      }
    }
  }

  /** With `maxretries` None or 0 the wrapper never gives up on a retried
      exception. */
  lemma {:induction false} RetryForever(c: Config, attempts: seq<Attempt>, interval: int, tries: nat)
    requires c.maxretries == None || c.maxretries == Some(0)
    ensures Run(c, attempts, interval, tries).outcome != Reraised
    decreases |attempts|
  {
    if attempts != [] && attempts[0].Raised? && attempts[0].caught {
      var i := if attempts[0].elapsed > c.reset then 1 else interval;
      if i >= 0 {
        RetryForever(c, attempts[1..], Min(i * 2, c.maxinterval), tries + 1);
      }
    }
  }

  /** With the decorator's default arguments the wrapper retries a caught
      exception forever and never sleeps longer than 30 seconds. */
  lemma DefaultsRetryForever(attempts: seq<Attempt>)
    ensures var t := Run(Defaults, attempts, 1, 0);
      t.outcome != Reraised && Within(t.sleeps, 0, 30)
  {
    RetryForever(Defaults, attempts, 1, 0);
    SleepsBounded(Defaults, attempts, 1, 0);
  }
}

=== FILE: store.dfy ===
/** The shared metadata store. Every watcher and every filter holds a
    reference to one `Cache` object, as the Python code shares one dict or
    one diskcache index; operations are atomic and sequential here. */
module Store {
  import opened Json

  class Cache<K(==), V> {
    var entries: map<K, V>

    constructor ()
      ensures entries == map[]
    {
      entries := map[];
    }

    /** `cache[k] = v`: insert or replace. */
    method Put(k: K, v: V)
      modifies this
      ensures entries == old(entries)[k := v]
    {
      entries := entries[k := v];
    }

    /** `del cache[k]`: an absent key raises KeyError and changes nothing. */
    method Del(k: K) returns (r: Result<()>)
      modifies this
      ensures r == (if k in old(entries) then Ok(()) else Err(KeyError))
      ensures entries == old(entries) - {k}
    {
      if k in entries {
        entries := entries - {k};
        r := Ok(());
      } else {
        r := Err(KeyError);
      }
    }

    /** `cache.clear()`. */
    method Clear()
      modifies this
      ensures entries == map[]
    {
      entries := map[];
    }
  }

  /** `cache.get(k)`: None when the key is absent. */
  function Lookup<K>(entries: map<K, Value>, k: K): Value {
    if k in entries then entries[k] else Null
  }
}
